=== FILE: README.md ===
# DAOS VOL map connector, modelled in Dafny

This project models the map component of the HDF5 DAOS VOL connector
(`src/daos_vol_map.c`). A map is a DAOS object. Its records are
key/value pairs: each key's bytes are a DAOS dkey, and the value is the single
value stored under that dkey. The map's serialized key and value datatypes live
under an internal metadata dkey of the same object.

The model covers:

- **create** (`MapCreate`): the lead process takes the next object index,
  persists it, opens the new object, writes the two serialized types and links
  the map into its parent group. Every other process of a collective create
  derives the same object id and only opens it.
- **open** (`MapOpen`): the lead process opens the object, reads the two
  serialized types and broadcasts them in a map-info envelope. The envelope is
  a 32-byte little-endian header (oid.lo, oid.hi, ktype_len, vtype_len), then
  the key type, then the value type. Followers receive the envelope instead of
  reading the store. A second broadcast carries the payload when the envelope
  does not fit the static buffer. A collective leader with other processes
  that fails after the collective check broadcasts an all-zero buffer, which
  followers read as "the lead process failed"; one that fails earlier (the
  argument checks, the collective-property lookup or the struct allocation)
  broadcasts nothing and leaves the followers waiting.
- **size classification** of keys and values (`Datatypes`): get_size and
  dtype_info.
- **set, get, exists and get_count** (`MapValues`) over an abstract store of
  dkey → value bytes.
- **close** (`MapObject`): reference-counted. The last close releases the
  request, the object handle and both type ids.

MPI broadcasts are modelled as an ordered list of messages. A leader's run
yields the messages it sends; a follower's run consumes an inbox. A follower
with nothing left to receive is `Blocked`, which stands for a hang. Every
external call whose failure the source checks and turns into an error result
(DAOS, MPI, H5T, the allocator, path traversal) is a fault-injection point. A
run takes the first failing call, if that call is reached, as a parameter.
Calls whose failure the source ignores or only reports are listed under
"Left out", as is the group close at the end of the open, whose failure does
turn the result into NULL but is not a fault point of this model.

The oid encoding of the create path is passed in as a pair of functions
(`OidCodec`), because the encoding itself lives outside this file.

## Model

| member | source | states |
|---|---|---|
| `Bytes.Decode64OfEncode64` | src/daos_vol_map.c:358-365 | decoding the 8 little-endian bytes the leader encodes for a 64-bit field gives the field back |
| `Bytes.Encode64OfDecode64` | src/daos_vol_map.c:385-392 | any 8 bytes a follower decodes re-encode to the same bytes, so the field codec is a bijection |
| `Envelope.HeaderRoundTrip` | src/daos_vol_map.c:358-365 | the 32-byte header (oid.lo, oid.hi, ktype_len, vtype_len) decodes back to what was encoded, whatever bytes follow it |
| `Envelope.HeaderBytesRoundTrip` | src/daos_vol_map.c:385-392 | any received buffer's first 32 bytes are exactly the encoding of the header decoded from them |
| `Envelope.ZeroHeader` | src/daos_vol_map.c:395-397 | an all-zero buffer decodes to a header whose ktype_len is 0, the followers' failure signal |
| `MapObject.TeardownReleasesHeld` | src/daos_vol_map.c:935-946 | the last close releases the open request, the object handle and each type id exactly when the map holds them, and nothing it does not hold |
| `MapObject.TeardownStatus` | src/daos_vol_map.c:939-945 | the close reports success exactly when no held handle or type id fails to release |
| `MapObject.Close` | src/daos_vol_map.c:924-953 | a NULL map is an argument error; a close above count one only decrements and passes; the last close releases everything, with the struct freed last, and fails exactly as the handle and type releases do |
| `MapObject.CloseTimesReleasesOnce` | src/daos_vol_map.c:935-947 | a map with count n stays live and releases nothing through n-1 closes; the n-th close releases everything exactly once |
| `Datatypes.StrLen` | src/daos_vol_map.c:491-492 | strlen is the position of the first NUL byte |
| `Datatypes.GetSize` | src/daos_vol_map.c:470-540 | a variable string's size is its characters plus the NUL; listed fixed classes have the type's size; a VLEN has base size times element count; an unusable base type, an id that is not a datatype or an unknown class is an error |
| `Datatypes.DtypeInfo` | src/daos_vol_map.c:555-611 | variable strings and VLENs are variable-length with size 0; other listed classes are fixed with the type's size; non-datatypes and unknown classes are errors |
| `Datatypes.InfoAgreesWithSize` | src/daos_vol_map.c:488-531 | dtype_info and get_size agree on every fixed-size type and fail on the same ids, except that only get_size checks a VLEN's base type |
| `MapValues.DKey` | src/daos_vol_map.c:637-645 | a key has a dkey exactly when get_size succeeds on it, and the dkey has that size |
| `MapValues.Probe` | src/daos_vol_map.c:894-902 | a probe reads size 0 exactly when the key has no record or an empty one |
| `MapValues.Set` | src/daos_vol_map.c:614-678 | NULL map, key or value fails first; the set succeeds exactly when all three are present, both sizes are known and the update succeeds; it then adds the key's dkey with a record of the value's size and leaves every other record unchanged |
| `MapValues.Get` | src/daos_vol_map.c:681-777 | NULL arguments fail first; get succeeds exactly when the arguments are present, the key size and value type are known and neither the probe (VL values only) nor the fetch fails; a fixed value is fetched into a buffer of the value type's size: a record longer than that fails the fetch, and one that fits comes back as stored (untouched when absent); a variable string returns the stored bytes; a VLEN returns the stored bytes with `len` set to their byte count |
| `MapValues.Exists` | src/daos_vol_map.c:861-908 | NULL arguments fail first; exists succeeds exactly when the arguments are present, the key size is known and the probe succeeds; the key exists exactly when its stored record is nonempty |
| `MapValues.SetThenGet` | src/daos_vol_map.c:614-777 | a value set and read back returns the element bytes, the string with its terminator, or the VLEN's data |
| `MapValues.VlenLenRoundTrip` | src/daos_vol_map.c:516-529 | a VLEN's `len` survives a set/get round trip exactly when its base type is one byte wide or the sequence is empty |
| `MapValues.SetThenExists` | src/daos_vol_map.c:894-902 | after a set, the key exists exactly when the value's size is nonzero |
| `MapValues.SetFrame` | src/daos_vol_map.c:669-671 | a set leaves get and exists on every other key unchanged |
| `MapValues.ReadWithOtherType` | src/daos_vol_map.c:722-735 | a value read back with a different fixed-size type is fetched exactly when its record fits that type's size, whole, and otherwise the get fails |
| `MapValues.AbsentKey` | src/daos_vol_map.c:740-775 | get on a key with no record succeeds with the buffer untouched or an empty string or hvl_t; exists answers false |
| `MapValues.ListedKeys` | src/daos_vol_map.c:836-849 | the listing fails only with the list error |
| `MapValues.GetCount` | src/daos_vol_map.c:809-858 | NULL arguments fail first; otherwise the batched loop with its 64-bit counter returns the listed key count minus one, modulo 2^64 |
| `MapValues.CountIsStoredKeys` | src/daos_vol_map.c:851-852 | when the listing yields the metadata dkey and each stored key once, the count is the number of stored keys |
| `MapValues.EmptyListingWraps` | src/daos_vol_map.c:852 | an empty listing makes the count wrap to 2^64 - 1 |
| `OpenProperties.FirstMessageFacts` | src/daos_vol_map.c:358-368 | the first broadcast is the static buffer's size, starts with the leader's header, and carries the payload right after it when that fits |
| `OpenProperties.LeaderOpensStoredTypes` | src/daos_vol_map.c:269-351 | a leader never waits; an open it completes has the located object and the two stored types, both nonempty; with usable arguments, stored types and no failing call it always completes |
| `OpenProperties.SilentWhenAlone` | src/daos_vol_map.c:269-271 | a leader with nobody to tell broadcasts nothing |
| `OpenProperties.LeaderSendsEnvelope` | src/daos_vol_map.c:353-378 | a successful collective leader sends the envelope, and the payload again only when it did not fit; the sent ktype_len is never zero |
| `OpenProperties.FailedLeaderPoisons` | src/daos_vol_map.c:432-439 | a collective leader failing before its first broadcast sends exactly one all-zero buffer, whose ktype_len is 0 |
| `OpenProperties.LateFailureStillPoisons` | src/daos_vol_map.c:368-439 | a leader failing at the second broadcast or at decoding still sends the all-zero buffer after the real messages |
| `OpenProperties.LeaderHeap` | src/daos_vol_map.c:330-335 | the leader allocates header plus payload only when the envelope exceeds the static buffer, at most once, and frees it on every exit |
| `OpenProperties.PoisonStopsFollower` | src/daos_vol_map.c:395-397 | a follower receiving ktype_len 0 fails at once: its whole run is that one receive and the freeing of its struct, so it opens, allocates and decodes nothing and makes no second receive |
| `OpenProperties.FollowerFootprint` | src/daos_vol_map.c:380-418 | a follower never broadcasts, receives in send order, allocates only for a payload larger than the static buffer, exactly tot_len as decoded from the first message's header, and frees it unless still waiting |
| `OpenProperties.FollowerBodyAdopts` | src/daos_vol_map.c:380-425 | given a successful leader's messages, a follower opens the same object with the same two types and consumes exactly those messages |
| `OpenProperties.FollowerDecodeAdopts` | src/daos_vol_map.c:385-413 | the leader's header, decoded, selects the receive path matching how the payload was sent |
| `OpenProperties.FollowerInlineAdopts` | src/daos_vol_map.c:415-425 | a payload that came inline is split at ktype_len into the two types |
| `OpenProperties.FollowerSecondAdopts` | src/daos_vol_map.c:400-425 | a payload received on its own is split at ktype_len, into a dynamic buffer exactly when it exceeds the static one |
| `OpenProperties.OpenAgreement` | src/daos_vol_map.c:353-425 | a follower reading a successful collective leader's messages opens the same map and receives exactly what was sent |
| `OpenProperties.LeaderFailureReachesFollower` | src/daos_vol_map.c:432-439 | a leader failing before its first broadcast makes every receiving follower fail with "lead process failed" instead of waiting |
| `OpenProperties.SilentLeaderBlocksFollower` | src/daos_vol_map.c:245-258 | a leader failing at the early checks sends nothing, so a waiting follower stays blocked |
| `OpenProperties.FailedOpenReleases` | src/daos_vol_map.c:441-444 | a failed open closes the one object it opened and frees the struct last; a successful one releases nothing |
| `OpenProperties.ClosesWhatItOpened` | src/daos_vol_map.c:939-941 | the handle a map holds is the one object its run opened, so teardown closes it |
| `MapCreate.NextIdx` | src/daos_vol_map.c:81 | the new object index is max_oid + 1 in 64-bit arithmetic, wrapping to 0 |
| `CreateProperties.EarlyFailureChangesNothing` | src/daos_vol_map.c:57-71 | a NULL parent, no write intent, an unreadable collective property or a failed struct allocation touches nothing and leaves the file as it was |
| `CreateProperties.LeaderWritesInOrder` | src/daos_vol_map.c:84-161 | the leader writes max_oid, opens the object, writes the type metadata, then links, in that order; a failure stops the list where it occurred; success performs all of it |
| `CreateProperties.FollowerOnlyOpens` | src/daos_vol_map.c:162-169 | a follower writes nothing and closes no group; at most it opens the new object |
| `CreateProperties.MaxOidAdvances` | src/daos_vol_map.c:100-102 | only max_oid changes: the leader sets it to the new id's index once the path resolves, even if a later step fails; a follower sets it to the id's low word |
| `CreateProperties.CreateReturnsMap` | src/daos_vol_map.c:171-178 | a created map has count 1, the new object open and copies of both types; with write intent and no failing call every process gets it |
| `CreateProperties.FailedCreateReleases` | src/daos_vol_map.c:185-190 | a failed create closes exactly the object handle it opened, releases no type other than the caller's two and frees the struct |
| `CreateProperties.FailedCreateReleasesCopies` | src/daos_vol_map.c:171-190 | a failed create releases the key type's copy exactly when the value copy or the group close failed, and the value type's copy exactly when only the group close failed |
| `CreateProperties.GroupCloseFailureDiscardsMap` | src/daos_vol_map.c:181-190 | a parent group failing to close after a complete create returns no map and releases it, although every write and the link are in the store |
| `CreateProperties.RolesAgree` | src/daos_vol_map.c:81-165 | leader and follower starting from the same max_oid return the same map; when the index sits in the id's low word they also agree on the new max_oid |
| `CreateProperties.CreatedThenClosed` | src/daos_vol_map.c:924-953 | the last close of a created map releases its object and both type copies, then the struct |
| `CreateProperties.CreateThenOpen` | src/daos_vol_map.c:129-150 | the types a leader's create writes under the new object are the ones a leader opening that object reads back, and the open yields the same id and types |

## Left out

- H5_daos_map_get_types (lines 780-802) copies the two type ids the map holds; it is not modelled because type ids are opaque here.
- DAOS object I/O, MPI and the H5T encode, decode and copy calls are not modelled. Each is a success or a failure, and DAOS reads return what the abstract store holds.
- H5_daos_group_traverse, H5_daos_link_follow, H5_daos_link_write and H5_daos_group_close are outside this file. Traversal yields the located oid, and the link is recorded with the full path rather than its last component.
- Allocation sizes of the struct and of the type encode buffers are not modelled; only their failure is. Partial writes into caller buffers are not modelled.
- OpenProperties.Valid: the leader's stored types are bounded so that tot_len + 32 fits an int, so the leader's 64-bit sums and the (int) count of its second broadcast are exact. The follower's 64-bit wrap of tot_len is modelled, but its (int) cast is not.
- MapOpen.Addressable: the bound above, stated once; it is weaker than the source, which lets larger types through to MPI.
- A receive whose count differs from the message's is modelled as a failed receive; MPI calls that erroneous.
- A blocked follower is a terminal `Blocked` status rather than a hang; its buffers are not freed in the model.
- The group close at the end of H5_daos_map_open (lines 446-448) is not modelled. Its failure turns a completed open into a NULL return after the cleanup block has already been skipped.
- The key of set/get/exists is taken from the buffer's own memory for every class. For a VLEN key that is the hvl_t descriptor's bytes (`Value.Hvl.raw`), not its data.
- Line 274 reads `loc_params.type` although `loc_params` is a pointer; the model reads it as `loc_params->type`.
- MapValues.Get reports a failure of the value type's dtype_info as `ValueSizeUnavailable`; line 711 pushes the key-size message of line 706 there, and the model names what failed instead.
- The buffers that map_get (lines 749 and 759) and map_get_count (line 829) allocate are not modelled: the source does not check those mallocs for failure, so they have no fault point.
- map_get_count never frees its list buffer (allocated at line 829; no free on any path through lines 851-857), so every call leaks it; the model, which tracks no allocation on this path, does not state the leak.
- A failure of the leader's all-zero broadcast in the open cleanup (line 437) is only reported and does not change the result; it is not a fault point.
- MapValues.Get relies on DAOS refusing a single-value fetch whose buffer is smaller than the stored record (-DER_REC2BIG) rather than truncating it; that behaviour belongs to DAOS, not to this file.
- The checksum outputs of get_size and the asserts on non-NULL internal arguments are not modelled.
- MapCreate.OidCodec: H5_daos_oid_encode and H5_daos_oid_to_idx are parameters. Their relation (the index kept in the low word) is assumed only where a lemma says so.
- Errors from closing the map inside the create and open cleanup are not modelled. They are reported, but the result is already NULL.

=== FILE: bytes.dfy ===
/** Bytes and fixed-width unsigned integers, with HDF5's little-endian
    UINT64ENCODE / UINT64DECODE. */
module Bytes {

  /** An unsigned char. */
  type byte = x: int | 0 <= x < 256

  const TWO64: int := 0x1_0000_0000_0000_0000

  /** sizeof(uint64_t). */
  const WORD: nat := 8

  /** A C `uint64_t`. */
  type u64 = x: int | 0 <= x < TWO64

  function Pow256(k: nat): (r: nat)
    ensures r >= 1
  {
    if k == 0 then 1 else 256 * Pow256(k - 1)
  }

  lemma Pow256Eight()
    ensures Pow256(WORD) == TWO64
  {
    assert Pow256(2) == 0x1_0000;
    assert Pow256(4) == 0x1_0000_0000;
    assert Pow256(6) == 0x1_0000_0000_0000;
  }

  lemma DivBound(n: nat, m: nat)
    requires n < 256 * m
    ensures n / 256 < m
  {
  }

  /** The low `k` bytes of `n`, least significant first. */
  function LE(n: nat, k: nat): (r: seq<byte>)
    ensures |r| == k
  {
    if k == 0 then [] else [(n % 256) as byte] + LE(n / 256, k - 1)
  }

  /** The number whose little-endian representation is `b`. */
  function FromLE(b: seq<byte>): (r: nat)
  {
    if |b| == 0 then 0 else b[0] + 256 * FromLE(b[1..])
  }

  lemma {:induction false} FromLEBound(b: seq<byte>)
    ensures FromLE(b) < Pow256(|b|)
  {
    if |b| > 0 {
      FromLEBound(b[1..]);
    }
  }

  lemma {:induction false} FromLEOfLE(n: nat, k: nat)
    requires n < Pow256(k)
    ensures FromLE(LE(n, k)) == n
  {
    if k > 0 {
      var q := n / 256;
      var b := LE(n, k);
      DivBound(n, Pow256(k - 1));
      FromLEOfLE(q, k - 1);
      assert b == [(n % 256) as byte] + LE(q, k - 1);
      assert b[1..] == LE(q, k - 1);
      assert b[0] == n % 256;
      calc {
        FromLE(b);
        b[0] + 256 * FromLE(b[1..]);
        (n % 256) + 256 * q;
        n;
      }
    }
  }

  lemma SplitLow(a: int, r: nat)
    requires 0 <= a < 256
    ensures (a + 256 * r) % 256 == a && (a + 256 * r) / 256 == r
  {
  }

  lemma {:induction false} LEOfFromLE(b: seq<byte>)
    ensures LE(FromLE(b), |b|) == b
  {
    if |b| > 0 {
      var n := FromLE(b);
      var r := FromLE(b[1..]);
      SplitLow(b[0], r);
      assert n % 256 == b[0];
      assert n / 256 == r;
      LEOfFromLE(b[1..]);
      assert LE(n, |b|) == [(n % 256) as byte] + LE(r, |b| - 1);
      assert b == [b[0]] + b[1..];
    }
  }

  /** UINT64ENCODE: eight bytes, least significant first. */
  function Encode64(n: u64): (r: seq<byte>)
    ensures |r| == WORD
  {
    LE(n, WORD)
  }

  /** UINT64DECODE of the eight bytes `b`. */
  function Decode64(b: seq<byte>): (r: u64)
    requires |b| == WORD
  {
    FromLEBound(b);
    Pow256Eight();
    FromLE(b)
  }

  lemma Decode64OfEncode64(n: u64)
    ensures Decode64(Encode64(n)) == n
  {
    Pow256Eight();
    FromLEOfLE(n, WORD);
  }

  lemma Encode64OfDecode64(b: seq<byte>)
    requires |b| == WORD
    ensures Encode64(Decode64(b)) == b
  {
    LEOfFromLE(b);
  }

  /** `n` zero bytes (a `memset(buf, 0, n)`). */
  function Zeros(n: nat): (r: seq<byte>)
    ensures |r| == n
    ensures forall i :: 0 <= i < n ==> r[i] == 0
  {
    if n == 0 then [] else [0] + Zeros(n - 1)
  }

  lemma {:induction false} FromLEZeros(b: seq<byte>)
    requires forall i :: 0 <= i < |b| ==> b[i] == 0
    ensures FromLE(b) == 0
  {
    if |b| > 0 {
      FromLEZeros(b[1..]);
    }
  }
}

=== FILE: create_properties.dfy ===
/** What H5_daos_map_create promises: the order of the leader's writes,
    the follower's silence, the new object index, the map it returns, the
    cleanup of a failed create, and that a map it creates opens again with
    the same types. */
module CreateProperties {
  import opened Bytes
  import opened Outcomes
  import opened MapObject
  import opened MapCreate
  import Envelope
  import MapOpen
  import OpenProperties

  // ---------------------------------------------------------------------
  // Traces

  lemma {:induction false} StepsAppend(a: seq<Event>, b: seq<Event>)
    ensures Steps(a + b) == Steps(a) + Steps(b)
    decreases |a|
  {
    if |a| == 0 {
      assert a + b == b;
    } else {
      var ab := a + b;
      assert ab[0] == a[0] && ab[1..] == a[1..] + b;
      StepsAppend(a[1..], b);
      assert Steps(ab) == Keep(a[0]) + (Steps(a[1..]) + Steps(b));
      assert Steps(a) == Keep(a[0]) + Steps(a[1..]);
    }
  }

  /** A trace of store operations only is its own list of steps. */
  lemma {:induction false} AllSteps(t: seq<Event>)
    requires forall i :: 0 <= i < |t| ==> IsStep(t[i])
    ensures Steps(t) == t
    decreases |t|
  {
    if |t| > 0 {
      AllSteps(t[1..]);
      assert [t[0]] + t[1..] == t;
    }
  }

  /** Closes and releases contribute no steps. */
  lemma {:induction false} NoSteps(t: seq<Event>)
    requires forall i :: 0 <= i < |t| ==> !IsStep(t[i])
    ensures Steps(t) == []
    decreases |t|
  {
    if |t| > 0 {
      NoSteps(t[1..]);
    }
  }

  lemma ReleasedIn(rs: seq<Release>)
    ensures forall x :: MapReleased(x) in ReleaseEvents(rs) <==> x in rs
    ensures forall i :: 0 <= i < |ReleaseEvents(rs)| ==> !IsStep(ReleaseEvents(rs)[i])
  {
    forall x | x in rs
      ensures MapReleased(x) in ReleaseEvents(rs)
    {
      var i :| 0 <= i < |rs| && rs[i] == x;
      assert ReleaseEvents(rs)[i] == MapReleased(x);
    }
  }

  // ---------------------------------------------------------------------
  // The stages

  /** The struct as built by either role before the types are copied: one
      reference, no request, no types yet, and the new object open exactly
      when the trace opened it, which every role that did not fail has. */
  ghost predicate Built(st: Stage, oid: Oid) {
    && st.obj.rc == 1 && !st.obj.openReq
    && st.obj.ktype == NoType && st.obj.vtype == NoType
    && (st.obj.oh == NoHandle || st.obj.oh == Open(oid))
    && (st.obj.oh == Open(oid) <==> ObjectOpened(oid) in st.trace)
    && (forall o :: ObjectOpened(o) in st.trace ==> o == oid)
    && (st.error.None? ==> st.obj.oh == Open(oid))
    && st.error != Some(TypeCopyFailed) && st.error != Some(GroupCloseFailed)
    && (forall i :: 0 <= i < |st.trace| ==> IsStep(st.trace[i]))
  }

  /** The faults that strike after the object is open and its writes are
      done: no error before the type copies. */
  predicate LateFault(fault: Option<Step>) {
    fault.None? || Fails(fault, KeyCopy) || Fails(fault, ValueCopy) || Fails(fault, GroupClose)
  }

  /** The leader's writes once the object is open. */
  lemma LeaderWriteStage(f: File, call: CreateCall, oid: Oid, fault: Option<Step>, grp: bool)
    ensures var st := LeaderWrite(f, call, oid, fault, grp);
      && Built(st, oid) && st.grp == grp && st.file == f && st.obj.oh == Open(oid)
      && st.trace <= LeaderSteps(call, oid, f.maxOid)
      && (st.error.None? ==> st.trace == LeaderSteps(call, oid, f.maxOid))
      && (LateFault(fault) ==> st.error.None?)
  {
    var plan := LeaderSteps(call, oid, f.maxOid);
    var obj := Fresh.(oh := Open(oid));
    var t2 := [MaxOidWritten(f.maxOid), ObjectOpened(oid)];
    var t3 := t2 + [MetadataWritten(oid, call.ktype, call.vtype)];
    if EncodeError(fault).Some? || Fails(fault, MetadataWrite) {
      assert plan[..2] == t2;
      assert t2[1] == ObjectOpened(oid);
    } else if call.name.None? || Fails(fault, LinkWrite) {
      assert plan[..3] == t3;
      assert t3[1] == ObjectOpened(oid);
    } else {
      assert plan[3] == LinkWritten(call.name.value, oid);
      assert plan[1] == ObjectOpened(oid);
    }
  }

  /** The leader's stage: a prefix of its planned writes, all of them when
      nothing failed; max_oid is the new id's index once the path resolved. */
  lemma LeaderStage(f: File, call: CreateCall, codec: OidCodec, oid: Oid, fault: Option<Step>)
    ensures var st := LeaderCreate(f, call, codec, oid, fault);
      && Built(st, oid)
      && st.trace <= LeaderSteps(call, oid, codec.toIdx(oid))
      && (st.error.None? ==> st.trace == LeaderSteps(call, oid, codec.toIdx(oid)))
      && (LateFault(fault) ==> st.error.None?)
      && st.grp == (call.name.Some? && !Fails(fault, Traverse))
      && st.file == (if call.name.Some? && Fails(fault, Traverse) then f else f.(maxOid := codec.toIdx(oid)))
  {
    var f1 := f.(maxOid := codec.toIdx(oid));
    var grp := call.name.Some?;
    var plan := LeaderSteps(call, oid, codec.toIdx(oid));
    if call.name.Some? && Fails(fault, Traverse) {
    } else if Fails(fault, MaxOidWrite) {
    } else if Fails(fault, ObjOpen) {
      assert plan[..1] == [MaxOidWritten(f1.maxOid)];
    } else {
      LeaderWriteStage(f1, call, oid, fault, grp);
    }
  }

  /** A follower's stage: at most the open of the new object. */
  lemma FollowerStage(f: File, oid: Oid, fault: Option<Step>)
    ensures var st := FollowerCreate(f, oid, fault);
      && Built(st, oid) && !st.grp
      && st.trace <= [ObjectOpened(oid)]
      && (LateFault(fault) ==> st.error.None?)
      && st.file == f.(maxOid := oid.lo)
  {
  }

  /** Copying the types: both copies on success, the key copy alone when
      the value copy fails, neither when the key copy or anything earlier
      fails. */
  lemma CopyStage(st: Stage, call: CreateCall, fault: Option<Step>, oid: Oid)
    requires Built(st, oid)
    ensures var s := CopyTypes(st, call, fault);
      && s.trace == st.trace && s.file == st.file && s.grp == st.grp
      && s.obj.rc == 1 && !s.obj.openReq && s.obj.oh == st.obj.oh
      && (s.error.None? <==> st.error.None? && !Fails(fault, KeyCopy) && !Fails(fault, ValueCopy))
      && (st.error.Some? ==> s.error == st.error)
      && (s.error.None? ==> s.obj == CreatedMap(oid, call))
      && (s.obj.ktype == NoType || s.obj.ktype == TypeRef(call.ktype))
      && (s.obj.vtype == NoType || s.obj.vtype == TypeRef(call.vtype))
      && (s.obj.ktype.TypeRef? <==> st.error.None? && !Fails(fault, KeyCopy))
      && (s.obj.vtype.TypeRef? <==> s.error.None?)
  {
  }

  /** The group close that `done:` adds is no step, and no release. */
  lemma ClosePart(st: Stage)
    requires forall i :: 0 <= i < |st.trace| ==> IsStep(st.trace[i])
    ensures var t := st.trace + (if st.grp then [GroupClosed] else []);
      && Steps(t) == st.trace
      && (GroupClosed in t <==> st.grp)
      && (forall x :: MapReleased(x) !in t)
  {
    var close := if st.grp then [GroupClosed] else [];
    AllSteps(st.trace);
    NoSteps(close);
    StepsAppend(st.trace, close);
  }

  /** Releases appended to a trace without any add no steps and are the
      only releases of the result. */
  lemma ReleasePart(t: seq<Event>, rs: seq<Release>)
    requires forall x :: MapReleased(x) !in t
    ensures var u := t + ReleaseEvents(rs);
      && Steps(u) == Steps(t)
      && (GroupClosed in u <==> GroupClosed in t)
      && (forall x :: MapReleased(x) in u <==> x in rs)
  {
    var rel := ReleaseEvents(rs);
    ReleasedIn(rs);
    NoSteps(rel);
    StepsAppend(t, rel);
    assert GroupClosed !in rel;
  }

  /** The `done:` label keeps the file and the steps, returns the struct
      exactly when nothing failed (the group close included), and otherwise
      releases what the struct holds. */
  lemma DoneFacts(st: Stage, fault: Option<Step>)
    requires forall i :: 0 <= i < |st.trace| ==> IsStep(st.trace[i])
    ensures var r := Done(st, fault);
      && r.file == st.file
      && Steps(r.trace) == st.trace
      && (GroupClosed in r.trace <==> st.grp)
      && (r.result.Ok? <==> st.error.None? && !(st.grp && Fails(fault, GroupClose)))
      && (r.result.Ok? ==> r.result.value == st.obj && forall x :: MapReleased(x) !in r.trace)
      && (st.error.Some? ==> r.result == Err(st.error.value))
      && (st.error.None? && r.result.Err? ==> r.result == Err(GroupCloseFailed))
      && (r.result.Err? ==> forall x :: MapReleased(x) in r.trace <==> x in Teardown(st.obj))
  {
    var t := st.trace + (if st.grp then [GroupClosed] else []);
    ClosePart(st);
    if Done(st, fault).result.Err? {
      ReleasePart(t, Teardown(st.obj));
    }
  }

  /** The struct's state at `done:` on either role. */
  ghost predicate Settled(st: Stage, oid: Oid, call: CreateCall) {
    && st.obj.rc == 1 && !st.obj.openReq
    && (st.obj.oh == Open(oid) <==> ObjectOpened(oid) in st.trace)
    && (forall o :: ObjectOpened(o) in st.trace ==> o == oid)
    && (st.obj.oh == NoHandle || st.obj.oh == Open(oid))
    && (st.obj.ktype == NoType || st.obj.ktype == TypeRef(call.ktype))
    && (st.obj.vtype == NoType || st.obj.vtype == TypeRef(call.vtype))
    && (forall i :: 0 <= i < |st.trace| ==> IsStep(st.trace[i]))
  }

  /** A leader's run past the early checks. */
  lemma LeaderRun(f: File, call: CreateCall, codec: OidCodec, fault: Option<Step>)
    requires Started(f, call, fault) && IsLeader(f, call)
    ensures var oid := NewOid(f, codec);
      var st := CopyTypes(LeaderCreate(f, call, codec, oid, fault), call, fault);
      var r := Create(f, call, codec, fault);
      && r == Done(st, fault)
      && Built(LeaderCreate(f, call, codec, oid, fault), oid)
      && st.trace <= LeaderSteps(call, oid, codec.toIdx(oid))
      && (st.error.None? ==> st.obj == CreatedMap(oid, call) && st.trace == LeaderSteps(call, oid, codec.toIdx(oid)))
      && (fault.None? || Fails(fault, GroupClose) ==> st.error.None?)
      && st.grp == (call.name.Some? && !Fails(fault, Traverse))
      && st.file == (if call.name.Some? && Fails(fault, Traverse) then f else f.(maxOid := codec.toIdx(oid)))
      && Settled(st, oid, call)
  {
    var oid := NewOid(f, codec);
    LeaderStage(f, call, codec, oid, fault);
    CopyStage(LeaderCreate(f, call, codec, oid, fault), call, fault, oid);
  }

  /** A follower's run past the early checks. */
  lemma FollowerRun(f: File, call: CreateCall, codec: OidCodec, fault: Option<Step>)
    requires Started(f, call, fault) && !IsLeader(f, call)
    ensures var oid := NewOid(f, codec);
      var st := CopyTypes(FollowerCreate(f, oid, fault), call, fault);
      var r := Create(f, call, codec, fault);
      && r == Done(st, fault)
      && !st.grp
      && st.trace <= [ObjectOpened(oid)]
      && (st.error.None? ==> st.obj == CreatedMap(oid, call))
      && (fault.None? || Fails(fault, GroupClose) ==> st.error.None?)
      && st.file == f.(maxOid := oid.lo)
      && Settled(st, oid, call)
  {
    var oid := NewOid(f, codec);
    FollowerStage(f, oid, fault);
    CopyStage(FollowerCreate(f, oid, fault), call, fault, oid);
  }

  // ---------------------------------------------------------------------
  // The properties

  /** A NULL parent, a file without write intent, an unreadable collective
      property or a failed struct allocation ends the call before it touches
      anything: no event, the file as it was, and the error of the check. */
  lemma EarlyFailureChangesNothing(f: File, call: CreateCall, codec: OidCodec, fault: Option<Step>)
    requires !Started(f, call, fault)
    ensures var r := Create(f, call, codec, fault);
      && r.trace == [] && r.file == f && r.result.Err?
      && (!call.itemPresent ==> r.result.error == NullArgument)
      && (call.itemPresent && !f.rdwr ==> r.result.error == NoWriteIntent)
  {
  }

  /** The leader's store operations happen in one order: the new max_oid,
      the object's open, its type metadata, the link; a failure stops the
      list where it happened and undoes nothing, and success performs all
      of it. */
  lemma LeaderWritesInOrder(f: File, call: CreateCall, codec: OidCodec, fault: Option<Step>)
    requires Started(f, call, fault) && IsLeader(f, call)
    ensures var oid := NewOid(f, codec);
      var r := Create(f, call, codec, fault);
      && Steps(r.trace) <= LeaderSteps(call, oid, codec.toIdx(oid))
      && (r.result.Ok? ==> Steps(r.trace) == LeaderSteps(call, oid, codec.toIdx(oid)))
  {
    var oid := NewOid(f, codec);
    LeaderRun(f, call, codec, fault);
    DoneFacts(CopyTypes(LeaderCreate(f, call, codec, oid, fault), call, fault), fault);
  }

  /** A follower writes nothing to the store: at most it opens the object
      the leader creates. */
  lemma FollowerOnlyOpens(f: File, call: CreateCall, codec: OidCodec, fault: Option<Step>)
    requires Started(f, call, fault) && !IsLeader(f, call)
    ensures Steps(Create(f, call, codec, fault).trace) <= [ObjectOpened(NewOid(f, codec))]
    ensures GroupClosed !in Create(f, call, codec, fault).trace
  {
    var oid := NewOid(f, codec);
    FollowerRun(f, call, codec, fault);
    DoneFacts(CopyTypes(FollowerCreate(f, oid, fault), call, fault), fault);
  }

  /** Only max_oid changes. The leader sets it to the new id's index as soon
      as the path resolves, and keeps it when a later step fails; a follower
      sets it to the new id's low word. */
  lemma MaxOidAdvances(f: File, call: CreateCall, codec: OidCodec, fault: Option<Step>)
    ensures var r := Create(f, call, codec, fault);
      && r.file == f.(maxOid := r.file.maxOid)
      && (!Started(f, call, fault) ==> r.file == f)
      && (Started(f, call, fault) && IsLeader(f, call) && !(call.name.Some? && Fails(fault, Traverse)) ==>
            r.file.maxOid == codec.toIdx(NewOid(f, codec)))
      && (Started(f, call, fault) && IsLeader(f, call) && call.name.Some? && Fails(fault, Traverse) ==>
            r.file == f)
      && (Started(f, call, fault) && !IsLeader(f, call) ==> r.file.maxOid == NewOid(f, codec).lo)
  {
    if Started(f, call, fault) {
      var oid := NewOid(f, codec);
      if IsLeader(f, call) {
        LeaderRun(f, call, codec, fault);
        DoneFacts(CopyTypes(LeaderCreate(f, call, codec, oid, fault), call, fault), fault);
      } else {
        FollowerRun(f, call, codec, fault);
        DoneFacts(CopyTypes(FollowerCreate(f, oid, fault), call, fault), fault);
      }
    }
  }

  /** The map a create returns holds one reference, the new object and
      copies of both types; with write intent and no failing call, every
      process gets it, and the leader closes the parent group it opened. */
  lemma CreateReturnsMap(f: File, call: CreateCall, codec: OidCodec, fault: Option<Step>)
    ensures var r := Create(f, call, codec, fault);
      && (r.result.Ok? ==> r.result.value == CreatedMap(NewOid(f, codec), call))
      && (call.itemPresent && f.rdwr && fault.None? ==> r.result.Ok?)
      && (r.result.Ok? ==> (GroupClosed in r.trace <==> IsLeader(f, call) && call.name.Some?))
  {
    if Started(f, call, fault) {
      var oid := NewOid(f, codec);
      if IsLeader(f, call) {
        LeaderRun(f, call, codec, fault);
        DoneFacts(CopyTypes(LeaderCreate(f, call, codec, oid, fault), call, fault), fault);
      } else {
        FollowerRun(f, call, codec, fault);
        DoneFacts(CopyTypes(FollowerCreate(f, oid, fault), call, fault), fault);
      }
    }
  }

  /** The cleanup of a failed create, given the struct it had built. */
  lemma FailedReleases(st: Stage, fault: Option<Step>, oid: Oid, call: CreateCall)
    requires Settled(st, oid, call)
    ensures var r := Done(st, fault);
      r.result.Err? ==>
        && (forall o :: MapReleased(ObjClosed(o)) in r.trace <==> ObjectOpened(o) in r.trace)
        && (forall t :: MapReleased(KeyTypeReleased(t)) in r.trace ==> t == call.ktype)
        && (forall t :: MapReleased(ValueTypeReleased(t)) in r.trace ==> t == call.vtype)
        && MapReleased(StructFreed) in r.trace
  {
    DoneFacts(st, fault);
    TeardownReleasesHeld(st.obj);
    var r := Done(st, fault);
    if r.result.Err? {
      var close := if st.grp then [GroupClosed] else [];
      var rel := ReleaseEvents(Teardown(st.obj));
      ReleasedIn(Teardown(st.obj));
      assert r.trace == st.trace + close + rel;
      forall o
        ensures ObjectOpened(o) in r.trace <==> ObjectOpened(o) in st.trace
      {
        assert ObjectOpened(o) !in rel;
      }
      assert Teardown(st.obj)[|Teardown(st.obj)| - 1] == StructFreed;
    }
  }

  /** A failed create closes the map: the object handle is closed exactly
      when the run had opened it, each type copy it made is released, and
      the struct is freed. The object and whatever was written stay in the
      store. */
  lemma FailedCreateReleases(f: File, call: CreateCall, codec: OidCodec, fault: Option<Step>)
    requires Started(f, call, fault)
    ensures var r := Create(f, call, codec, fault);
      r.result.Err? ==>
        && (forall o :: MapReleased(ObjClosed(o)) in r.trace <==> ObjectOpened(o) in r.trace)
        && (forall t :: MapReleased(KeyTypeReleased(t)) in r.trace ==> t == call.ktype)
        && (forall t :: MapReleased(ValueTypeReleased(t)) in r.trace ==> t == call.vtype)
        && MapReleased(StructFreed) in r.trace
  {
    var oid := NewOid(f, codec);
    if IsLeader(f, call) {
      LeaderRun(f, call, codec, fault);
      FailedReleases(CopyTypes(LeaderCreate(f, call, codec, oid, fault), call, fault), fault, oid, call);
    } else {
      FollowerRun(f, call, codec, fault);
      FailedReleases(CopyTypes(FollowerCreate(f, oid, fault), call, fault), fault, oid, call);
    }
  }

  /** A failed create releases a type copy only if it made it: the key
      type's copy exists once the value type's copy is the step that
      failed, and both exist when only the group close failed; any earlier
      failure leaves no copy to release. */
  lemma FailedCreateReleasesCopies(f: File, call: CreateCall, codec: OidCodec, fault: Option<Step>)
    requires Started(f, call, fault)
    ensures var r := Create(f, call, codec, fault);
      r.result.Err? ==>
        && (MapReleased(KeyTypeReleased(call.ktype)) in r.trace <==>
              Fails(fault, ValueCopy) || r.result.error == GroupCloseFailed)
        && (MapReleased(ValueTypeReleased(call.vtype)) in r.trace <==>
              r.result.error == GroupCloseFailed)
  {
    var oid := NewOid(f, codec);
    var st0 := if IsLeader(f, call) then LeaderCreate(f, call, codec, oid, fault) else FollowerCreate(f, oid, fault);
    if IsLeader(f, call) {
      LeaderStage(f, call, codec, oid, fault);
    } else {
      FollowerStage(f, oid, fault);
    }
    var st := CopyTypes(st0, call, fault);
    CopyStage(st0, call, fault, oid);
    assert Create(f, call, codec, fault) == Done(st, fault);
    DoneFacts(st, fault);
    TeardownReleasesHeld(st.obj);
  }

  /** A parent group that fails to close turns a finished create into a
      failure: every write is already in the store and the link exists, yet
      the caller gets no map and the map's handle and type copies are
      released. */
  lemma GroupCloseFailureDiscardsMap(f: File, call: CreateCall, codec: OidCodec)
    requires Started(f, call, Some(GroupClose)) && IsLeader(f, call) && call.name.Some?
    ensures var oid := NewOid(f, codec);
      var r := Create(f, call, codec, Some(GroupClose));
      && r.result == Err(GroupCloseFailed)
      && Steps(r.trace) == LeaderSteps(call, oid, codec.toIdx(oid))
      && LinkWritten(call.name.value, oid) in r.trace
      && MapReleased(ObjClosed(oid)) in r.trace
      && MapReleased(KeyTypeReleased(call.ktype)) in r.trace
      && MapReleased(ValueTypeReleased(call.vtype)) in r.trace
  {
    var oid := NewOid(f, codec);
    var fault := Some(GroupClose);
    LeaderRun(f, call, codec, fault);
    var st := CopyTypes(LeaderCreate(f, call, codec, oid, fault), call, fault);
    DoneFacts(st, fault);
    TeardownReleasesHeld(st.obj);
    var r := Create(f, call, codec, fault);
    assert LeaderSteps(call, oid, codec.toIdx(oid))[3] == LinkWritten(call.name.value, oid);
    assert r.trace[..|st.trace|] == st.trace;
  }

  /** Leader and follower of one collective create, starting from the same
      max_oid, agree on the map when both succeed; when the index lives in
      the id's low word and decodes back, they also agree on the new
      max_oid, which is the next index. */
  lemma RolesAgree(f1: File, f2: File, call: CreateCall, codec: OidCodec, fault1: Option<Step>, fault2: Option<Step>)
    requires f1.maxOid == f2.maxOid
    requires IsLeader(f1, call) && !IsLeader(f2, call)
    ensures var r1 := Create(f1, call, codec, fault1);
      var r2 := Create(f2, call, codec, fault2);
      && (r1.result.Ok? && r2.result.Ok? ==> r1.result == r2.result)
      && (var i := NextIdx(f1);
          Started(f1, call, fault1) && Started(f2, call, fault2) && !(call.name.Some? && Fails(fault1, Traverse))
          && codec.toIdx(codec.encode(i)) == i && codec.encode(i).lo == i ==>
            r1.file.maxOid == r2.file.maxOid == i)
  {
    assert NewOid(f1, codec) == NewOid(f2, codec);
    CreateReturnsMap(f1, call, codec, fault1);
    CreateReturnsMap(f2, call, codec, fault2);
    MaxOidAdvances(f1, call, codec, fault1);
    MaxOidAdvances(f2, call, codec, fault2);
  }

  /** The last close of a created map releases its object handle and both
      type copies, and nothing else but the struct. */
  lemma CreatedThenClosed(f: File, call: CreateCall, codec: OidCodec, fault: Option<Step>)
    requires Create(f, call, codec, fault).result.Ok?
    ensures var m := Create(f, call, codec, fault).result.value;
      Close(Some(m), NoCloseFaults)
        == Closed(None, [ObjClosed(NewOid(f, codec)), KeyTypeReleased(call.ktype), ValueTypeReleased(call.vtype), StructFreed], Pass)
  {
    CreateReturnsMap(f, call, codec, fault);
  }

  /** A map the leader creates opens again with the types it was created
      with: the create wrote them under the new object, and a leader that
      opens that object reading those types gets a map of the same id and
      types. Serialized types are never empty. */
  lemma CreateThenOpen(f: File, call: CreateCall, codec: OidCodec, fault: Option<Step>,
                       g: MapOpen.Group, S: nat, ocall: MapOpen.Call, env: MapOpen.Env, inbox: seq<seq<byte>>)
    requires IsLeader(f, call) && Create(f, call, codec, fault).result.Ok?
    requires |call.ktype| > 0 && |call.vtype| > 0
    requires MapOpen.IsLeader(g) && OpenProperties.Valid(S, env)
    requires ocall.itemPresent && ocall.locPresent && !ocall.loc.OtherLoc? && ocall.loc != MapOpen.BySelf(None)
    requires env.located == NewOid(f, codec) && env.fault.None?
    requires MetadataWritten(env.located, env.ktype, env.vtype) in Create(f, call, codec, fault).trace
    ensures env.ktype == call.ktype && env.vtype == call.vtype
    ensures MapOpen.RunOpen(g, S, ocall, env, inbox).status
              == MapOpen.Opened(MapOpen.OpenedMap(NewOid(f, codec), call.ktype, call.vtype))
  {
    var oid := NewOid(f, codec);
    LeaderWritesInOrder(f, call, codec, fault);
    var r := Create(f, call, codec, fault);
    var plan := LeaderSteps(call, oid, codec.toIdx(oid));
    assert Steps(r.trace) == plan;
    assert MetadataWritten(env.located, env.ktype, env.vtype) in Steps(r.trace) by {
      StepsKeeps(r.trace, MetadataWritten(env.located, env.ktype, env.vtype));
    }
    assert env.ktype == call.ktype && env.vtype == call.vtype by {
      var i :| 0 <= i < |plan| && plan[i] == MetadataWritten(env.located, env.ktype, env.vtype);
      assert i == 2;
    }
    OpenProperties.LeaderOpensStoredTypes(g, S, ocall, env, inbox);
  }

  /** Every store operation of a trace is among its steps. */
  lemma {:induction false} StepsKeeps(t: seq<Event>, e: Event)
    requires e in t && IsStep(e)
    ensures e in Steps(t)
    decreases |t|
  {
    if t[0] != e {
      StepsKeeps(t[1..], e);
    }
  }
}

=== FILE: datatypes.dfy ===
/** Size classification of map keys and values: H5_daos_map_get_size and
    H5_daos_map_dtype_info over an abstract HDF5 datatype descriptor. */
module Datatypes {
  import opened Bytes
  import opened Outcomes

  /** H5T_class_t; `OutOfRange` is any value outside the enumeration, which
      only the `default:` arm of the source's switch can see. */
  datatype TypeClass =
    | NoClass | Integer | Float | Time | String | Bitfield | Opaque
    | Compound | Reference | Enum | Vlen | Array | NClasses | OutOfRange

  /** What the classification reads from a datatype: its class, whether a
      string type is variable-length, H5T_get_size, and the size of the base
      type of a VLEN (None when H5T_get_super fails). */
  datatype Dtype = Dtype(cls: TypeClass, varStr: bool, size: nat, superSize: Option<nat>)

  /** What H5Iobject_verify finds behind a type id. */
  datatype TypeArg = NotDatatype | Datatype(dt: Dtype)

  /** A buffer the caller passes: the bytes at its address, or an hvl_t
      (element count and data, plus the descriptor's own memory `raw`). */
  datatype Value =
    | Plain(bytes: seq<byte>)
    | Hvl(len: nat, data: seq<byte>, raw: seq<byte>)

  predicate IsVarString(dt: Dtype) {
    dt.cls == String && dt.varStr
  }

  /** The classes sized by H5T_get_size: every listed class except VLEN and
      variable-length strings (fixed-length strings fall through to here). */
  predicate IsFixed(dt: Dtype) {
    dt.cls != Vlen && dt.cls != OutOfRange && !IsVarString(dt)
  }

  predicate HasNul(b: seq<byte>) {
    exists i :: 0 <= i < |b| && b[i] == 0
  }

  /** The caller's side of the contract: the buffer has the shape its type
      calls for (a terminated string, an hvl_t whose data holds `len` base
      elements, a fixed element of the type's size). */
  predicate Fits(t: TypeArg, v: Value) {
    match t
    case NotDatatype => true
    case Datatype(dt) =>
      if dt.cls == OutOfRange then true
      else if dt.cls == Vlen then
        v.Hvl? && (dt.superSize.Some? ==> |v.data| == dt.superSize.value * v.len && |v.data| <= |v.raw|)
      else
        v.Plain? && (IsVarString(dt) ==> HasNul(v.bytes)) && (IsFixed(dt) ==> dt.size <= |v.bytes|)
  }

  /** strlen: the position of the first NUL byte. */
  function StrLen(b: seq<byte>): (n: nat)
    requires HasNul(b)
    ensures n < |b| && b[n] == 0
    ensures forall i :: 0 <= i < n ==> b[i] != 0
  {
    if b[0] == 0 then 0
    else
      assert HasNul(b[1..]) by {
        var i :| 0 <= i < |b| && b[i] == 0;
        assert i > 0 && b[1..][i - 1] == 0;
      }
      1 + StrLen(b[1..])
  }

  datatype Sized = Sized(size: nat, cls: TypeClass)

  /** H5_daos_map_get_size: the number of bytes of a key or value buffer. */
  function GetSize(t: TypeArg, buf: Value): (r: Result<Sized>)
    requires Fits(t, buf)
    ensures t.NotDatatype? ==> r == Err(NotADatatype)
    ensures r.Ok? ==> t.Datatype? && r.value.cls == t.dt.cls
    // a variable-length string: its characters and the terminating NUL
    ensures t.Datatype? && IsVarString(t.dt) ==>
              r.Ok? && 1 <= r.value.size <= |buf.bytes| && buf.bytes[r.value.size - 1] == 0
              && forall i :: 0 <= i < r.value.size - 1 ==> buf.bytes[i] != 0
    // every other listed class: the type's own size
    ensures t.Datatype? && IsFixed(t.dt) ==> r == Ok(Sized(t.dt.size, t.dt.cls))
    // VLEN: base size times element count, which is the length of its data
    ensures t.Datatype? && t.dt.cls == Vlen ==>
              match t.dt.superSize
              case None => r == Err(BadSuperType)
              case Some(s) => r.Ok? && r.value.size == s * buf.len == |buf.data| <= |buf.raw|
    ensures t.Datatype? && t.dt.cls == OutOfRange ==> r == Err(UnsupportedDatatype)
  {
    match t
    case NotDatatype => Err(NotADatatype)
    case Datatype(dt) =>
      if IsVarString(dt) then Ok(Sized(StrLen(buf.bytes) + 1, dt.cls))
      else if IsFixed(dt) then Ok(Sized(dt.size, dt.cls))
      else if dt.cls == Vlen then
        match dt.superSize
        case None => Err(BadSuperType)
        case Some(s) => Ok(Sized(s * buf.len, dt.cls))
      else Err(UnsupportedDatatype)
  }

  datatype TypeInfo = TypeInfo(isVl: bool, size: nat, cls: TypeClass)

  /** H5_daos_map_dtype_info: whether values of a type are variable-length,
      and the size of those that are not. */
  function DtypeInfo(t: TypeArg): (r: Result<TypeInfo>)
    ensures t.NotDatatype? ==> r == Err(NotADatatype)
    ensures t.Datatype? && t.dt.cls == OutOfRange ==> r == Err(UnsupportedDatatype)
    ensures t.Datatype? && t.dt.cls != OutOfRange ==> r.Ok? && r.value.cls == t.dt.cls
    ensures r.Ok? ==> (r.value.isVl <==> IsVarString(t.dt) || t.dt.cls == Vlen)
    ensures r.Ok? && r.value.isVl ==> r.value.size == 0
    ensures r.Ok? && !r.value.isVl ==> r.value.size == t.dt.size
  {
    match t
    case NotDatatype => Err(NotADatatype)
    case Datatype(dt) =>
      if IsVarString(dt) then Ok(TypeInfo(true, 0, dt.cls))
      else if IsFixed(dt) then Ok(TypeInfo(false, dt.size, dt.cls))
      else if dt.cls == Vlen then Ok(TypeInfo(true, 0, dt.cls))
      else Err(UnsupportedDatatype)
  }

  /** The two classifications agree: a type is fixed-size for one exactly
      when it is for the other, with the same size, and they fail on the same
      ids, except that only get_size looks at a VLEN's base type. */
  lemma InfoAgreesWithSize(t: TypeArg, buf: Value)
    requires Fits(t, buf)
    ensures DtypeInfo(t).Err? ==> GetSize(t, buf) == Err(DtypeInfo(t).error)
    ensures GetSize(t, buf).Err? ==>
              DtypeInfo(t).Err? || (t.dt.cls == Vlen && t.dt.superSize.None?)
    ensures DtypeInfo(t).Ok? && !DtypeInfo(t).value.isVl ==>
              GetSize(t, buf) == Ok(Sized(DtypeInfo(t).value.size, DtypeInfo(t).value.cls))
  {
  }
}

=== FILE: envelope.dfy ===
/** The map-info envelope that the lead process broadcasts from
    H5_daos_map_open: four little-endian 64-bit words (oid.lo, oid.hi,
    ktype_len, vtype_len) followed by the serialized key type and then the
    serialized value type. */
module Envelope {
  import opened Bytes

  /** 4 * sizeof(uint64_t): the bytes of the header words. */
  const HEADER_SIZE: nat := 32

  datatype Header = Header(lo: u64, hi: u64, klen: u64, vlen: u64)

  function EncodeHeader(h: Header): (r: seq<byte>)
    ensures |r| == HEADER_SIZE
  {
    Encode64(h.lo) + Encode64(h.hi) + Encode64(h.klen) + Encode64(h.vlen)
  }

  /** Reads the header from the first 32 bytes of `b`; the rest is ignored. */
  function DecodeHeader(b: seq<byte>): Header
    requires |b| >= HEADER_SIZE
  {
    Header(Decode64(b[0..8]), Decode64(b[8..16]), Decode64(b[16..24]), Decode64(b[24..32]))
  }

  /** The follower decodes exactly the four words the leader encoded, whatever
      follows them in the buffer. */
  lemma HeaderRoundTrip(h: Header, rest: seq<byte>)
    ensures DecodeHeader(EncodeHeader(h) + rest) == h
  {
    var b := EncodeHeader(h) + rest;
    assert b[0..8] == Encode64(h.lo);
    assert b[8..16] == Encode64(h.hi);
    assert b[16..24] == Encode64(h.klen);
    assert b[24..32] == Encode64(h.vlen);
    Decode64OfEncode64(h.lo);
    Decode64OfEncode64(h.hi);
    Decode64OfEncode64(h.klen);
    Decode64OfEncode64(h.vlen);
  }

  /** Re-encoding a decoded header reproduces the first 32 bytes. */
  lemma HeaderBytesRoundTrip(b: seq<byte>)
    requires |b| >= HEADER_SIZE
    ensures EncodeHeader(DecodeHeader(b)) == b[..HEADER_SIZE]
  {
    Encode64OfDecode64(b[0..8]);
    Encode64OfDecode64(b[8..16]);
    Encode64OfDecode64(b[16..24]);
    Encode64OfDecode64(b[24..32]);
    assert b[..HEADER_SIZE] == b[0..8] + b[8..16] + b[16..24] + b[24..32];
  }

  /** The poison buffer: an all-zero envelope decodes to all-zero words, in
      particular ktype_len = 0. */
  lemma ZeroHeader(n: nat)
    requires n >= HEADER_SIZE
    ensures DecodeHeader(Zeros(n)) == Header(0, 0, 0, 0)
  {
    var z := Zeros(n);
    FromLEZeros(z[0..8]);
    FromLEZeros(z[8..16]);
    FromLEZeros(z[16..24]);
    FromLEZeros(z[24..32]);
  }
}

=== FILE: map_create.dfy ===
/** H5_daos_map_create: the lead process takes the next object index,
    records it, creates and opens the map object, writes the serialized key
    and value types under the internal metadata key and links the map into
    its parent group; every other process derives the same object id and
    only opens it. */
module MapCreate {
  import opened Bytes
  import opened Outcomes
  import opened MapObject

  /** H5_daos_oid_encode for a map's object index, and H5_daos_oid_to_idx.
      The bit layout of the encoding is not part of this model. */
  datatype OidCodec = OidCodec(encode: u64 -> Oid, toIdx: Oid -> u64)

  /** The parts of the file this call reads or changes, as this process
      sees them: write intent, collective metadata access, the process's
      rank, and the highest object index handed out so far. */
  datatype File = File(rdwr: bool, collective: bool, rank: nat, maxOid: u64)

  /** The call's arguments: whether the parent object is present, the path
      (NULL or not), the collective-metadata property of the access list,
      and the key and value types, identified by their serialized form. */
  datatype CreateCall = CreateCall(itemPresent: bool, name: Option<seq<char>>, maplCollective: bool,
                                   ktype: seq<byte>, vtype: seq<byte>)

  /** The external calls of the create path that can report an error. */
  datatype Step =
    | CollProp | StructAlloc | Traverse | MaxOidWrite | ObjOpen
    | KeySize | KeyAlloc | KeyEncode | ValueSize | ValueAlloc | ValueEncode
    | MetadataWrite | LinkWrite | KeyCopy | ValueCopy | GroupClose

  /** `fault` is the first external call that fails, if it is reached. */
  predicate Fails(fault: Option<Step>, s: Step) {
    fault == Some(s)
  }

  /** What a run does to the store and to the handles it holds. */
  datatype Event =
    | MaxOidWritten(idx: u64)
    | ObjectOpened(oid: Oid)
    | MetadataWritten(oid: Oid, ktype: seq<byte>, vtype: seq<byte>)
    | LinkWritten(name: seq<char>, oid: Oid)
    | GroupClosed
    | MapReleased(r: Release)

  /** The run's events, the file as it is left, and the map or the error. */
  datatype Created = Created(trace: seq<Event>, file: File, result: Result<MapObj>)

  /** The state on reaching `done:`: events so far, the file, the first
      error, the map struct as far as it was built, and whether a parent
      group was opened by the traversal. */
  datatype Stage = Stage(trace: seq<Event>, file: File, error: Option<Error>, obj: MapObj, grp: bool)

  /** max_oid + 1 in 64-bit unsigned arithmetic. */
  function NextIdx(f: File): (i: u64)
    ensures f.maxOid < TWO64 - 1 ==> i == f.maxOid + 1 && i > f.maxOid
    ensures f.maxOid == TWO64 - 1 ==> i == 0
  {
    (f.maxOid + 1) % TWO64
  }

  /** The id of the map being created. */
  function NewOid(f: File, codec: OidCodec): Oid {
    codec.encode(NextIdx(f))
  }

  /** Collective metadata access: set by the file, or else by the map access
      property list. */
  predicate Collective(f: File, call: CreateCall) {
    f.collective || call.maplCollective
  }

  /** The process that creates the object and writes its metadata. */
  predicate IsLeader(f: File, call: CreateCall) {
    !Collective(f, call) || f.rank == 0
  }

  /** The checks every process makes before it knows its role passed. */
  predicate Started(f: File, call: CreateCall, fault: Option<Step>) {
    && call.itemPresent && f.rdwr
    && !(!f.collective && Fails(fault, CollProp))
    && !Fails(fault, StructAlloc)
  }

  /** Sizing, allocating and serializing the key type, then the value type:
      the error of the step that fails, if any. */
  function EncodeError(fault: Option<Step>): Option<Error> {
    if Fails(fault, KeySize) || Fails(fault, ValueSize) then Some(TypeSizeUnavailable)
    else if Fails(fault, KeyAlloc) || Fails(fault, ValueAlloc) then Some(TypeBufferAllocFailed)
    else if Fails(fault, KeyEncode) || Fails(fault, ValueEncode) then Some(TypeEncodeFailed)
    else None
  }

  /** Lines 85-113: traverse to the parent, record and persist the new
      max_oid, open the object. */
  function LeaderCreate(f: File, call: CreateCall, codec: OidCodec, oid: Oid, fault: Option<Step>): Stage {
    if call.name.Some? && Fails(fault, Traverse) then Stage([], f, Some(TraverseFailed), Fresh, false)
    else
      var grp := call.name.Some?;
      var f1 := f.(maxOid := codec.toIdx(oid));
      if Fails(fault, MaxOidWrite) then Stage([], f1, Some(MaxOidWriteFailed), Fresh, grp)
      else if Fails(fault, ObjOpen) then Stage([MaxOidWritten(f1.maxOid)], f1, Some(ObjectOpenFailed), Fresh, grp)
      else LeaderWrite(f1, call, oid, fault, grp)
  }

  /** Lines 115-160, with the object open: serialize both types, write them,
      link the map. */
  function LeaderWrite(f: File, call: CreateCall, oid: Oid, fault: Option<Step>, grp: bool): Stage {
    var obj := Fresh.(oh := Open(oid));
    var t2 := [MaxOidWritten(f.maxOid), ObjectOpened(oid)];
    if EncodeError(fault).Some? then Stage(t2, f, EncodeError(fault), obj, grp)
    else if Fails(fault, MetadataWrite) then Stage(t2, f, Some(MetadataWriteFailed), obj, grp)
    else
      var t3 := t2 + [MetadataWritten(oid, call.ktype, call.vtype)];
      if call.name.None? then Stage(t3, f, None, obj, grp)
      else if Fails(fault, LinkWrite) then Stage(t3, f, Some(LinkWriteFailed), obj, grp)
      else Stage(t3 + [LinkWritten(call.name.value, oid)], f, None, obj, grp)
  }

  /** Lines 162-169: take max_oid from the new id's low word and open the
      object the leader creates. */
  function FollowerCreate(f: File, oid: Oid, fault: Option<Step>): Stage {
    var f1 := f.(maxOid := oid.lo);
    if Fails(fault, ObjOpen) then Stage([], f1, Some(ObjectOpenFailed), Fresh, false)
    else Stage([ObjectOpened(oid)], f1, None, Fresh.(oh := Open(oid)), false)
  }

  /** Lines 171-175: the map keeps its own copies of both type ids. */
  function CopyTypes(st: Stage, call: CreateCall, fault: Option<Step>): Stage {
    if st.error.Some? then st
    else if Fails(fault, KeyCopy) then st.(error := Some(TypeCopyFailed))
    else
      var obj := st.obj.(ktype := TypeRef(call.ktype));
      if Fails(fault, ValueCopy) then st.(error := Some(TypeCopyFailed), obj := obj)
      else st.(obj := obj.(vtype := TypeRef(call.vtype)))
  }

  function ReleaseEvents(rs: seq<Release>): seq<Event> {
    seq(|rs|, i requires 0 <= i < |rs| => MapReleased(rs[i]))
  }

  /** The `done:` label: close the parent group (an error there turns a
      finished create into a failure), and on failure close the map, whose
      count is one, so that everything it holds is released. Errors from
      the close itself change nothing: the result is NULL already. */
  function Done(st: Stage, fault: Option<Step>): Created {
    var t := st.trace + (if st.grp then [GroupClosed] else []);
    var err := if st.error.None? && st.grp && Fails(fault, GroupClose) then Some(GroupCloseFailed) else st.error;
    match err
    case None => Created(t, st.file, Ok(st.obj))
    case Some(e) => Created(t + ReleaseEvents(Teardown(st.obj)), st.file, Err(e))
  }

  /** H5_daos_map_create for one process of the group. */
  function Create(f: File, call: CreateCall, codec: OidCodec, fault: Option<Step>): Created {
    if !call.itemPresent then Created([], f, Err(NullArgument))
    else if !f.rdwr then Created([], f, Err(NoWriteIntent))
    else if !f.collective && Fails(fault, CollProp) then Created([], f, Err(CollectivePropertyUnavailable))
    else if Fails(fault, StructAlloc) then Created([], f, Err(StructAllocFailed))
    else
      var oid := NewOid(f, codec);
      var st := if IsLeader(f, call) then LeaderCreate(f, call, codec, oid, fault) else FollowerCreate(f, oid, fault);
      Done(CopyTypes(st, call, fault), fault)
  }

  // ---------------------------------------------------------------------
  // Reference descriptions

  /** Everything a leader does to the store, in order, when nothing fails. */
  function LeaderSteps(call: CreateCall, oid: Oid, idx: u64): seq<Event> {
    [MaxOidWritten(idx), ObjectOpened(oid), MetadataWritten(oid, call.ktype, call.vtype)]
    + (match call.name case Some(n) => [LinkWritten(n, oid)] case None => [])
  }

  /** The store operations of a run, as opposed to the closes and
      releases of its `done:` label. */
  predicate IsStep(e: Event) {
    !e.GroupClosed? && !e.MapReleased?
  }

  function Keep(e: Event): seq<Event> {
    if IsStep(e) then [e] else []
  }

  function Steps(t: seq<Event>): seq<Event> {
    if |t| == 0 then [] else Keep(t[0]) + Steps(t[1..])
  }

  /** The map a successful create returns: one reference, no pending
      request, the new object open, and copies of both types. */
  function CreatedMap(oid: Oid, call: CreateCall): MapObj {
    MapObj(1, false, Open(oid), TypeRef(call.ktype), TypeRef(call.vtype))
  }
}

=== FILE: map_object.dfy ===
/** The in-memory map object (H5_daos_map_t) and its reference-counted close
    (H5_daos_map_close). */
module MapObject {
  import opened Bytes
  import opened Outcomes

  /** A 128-bit DAOS object identifier. */
  datatype Oid = Oid(lo: u64, hi: u64)

  /** The object's DAOS handle: DAOS_HDL_INVAL until the object is opened. */
  datatype Handle = NoHandle | Open(oid: Oid)

  /** A datatype id held by the map: FAIL until one is decoded or copied.
      The type itself is opaque; it is identified by its serialized bytes. */
  datatype TypeRef = NoType | TypeRef(blob: seq<byte>)

  datatype MapObj = MapObj(rc: nat, openReq: bool, oh: Handle, ktype: TypeRef, vtype: TypeRef)

  /** A freshly allocated map struct (rc = 1, nothing opened yet). */
  const Fresh: MapObj := MapObj(1, false, NoHandle, NoType, NoType)

  /** What the last close gives back, in the order the source releases it. */
  datatype Release =
    | ReqFreed
    | ObjClosed(oid: Oid)
    | KeyTypeReleased(kt: seq<byte>)
    | ValueTypeReleased(vt: seq<byte>)
    | StructFreed

  /** Which of the release calls report an error (daos_obj_close, H5I_dec_app_ref). */
  datatype CloseFaults = CloseFaults(objClose: bool, keyDec: bool, valueDec: bool)

  const NoCloseFaults: CloseFaults := CloseFaults(false, false, false)

  datatype Closed = Closed(remaining: Option<MapObj>, released: seq<Release>, status: Outcome)

  /** The releases performed when the count reaches zero: each one is attempted
      even if an earlier one reported an error. */
  function Teardown(m: MapObj): (r: seq<Release>)
    ensures |r| >= 1 && r[|r| - 1] == StructFreed
  {
    (if m.openReq then [ReqFreed] else [])
    + (if m.oh.Open? then [ObjClosed(m.oh.oid)] else [])
    + (match m.ktype case TypeRef(t) => [KeyTypeReleased(t)] case NoType => [])
    + (match m.vtype case TypeRef(t) => [ValueTypeReleased(t)] case NoType => [])
    + [StructFreed]
  }

  /** The last close gives back exactly what the map holds: its request, its
      object handle and each type id it has, and nothing it does not hold. */
  lemma TeardownReleasesHeld(m: MapObj)
    ensures ReqFreed in Teardown(m) <==> m.openReq
    ensures forall o :: ObjClosed(o) in Teardown(m) <==> m.oh == Open(o)
    ensures forall t :: KeyTypeReleased(t) in Teardown(m) <==> m.ktype == TypeRef(t)
    ensures forall t :: ValueTypeReleased(t) in Teardown(m) <==> m.vtype == TypeRef(t)
  {
    var a := if m.openReq then [ReqFreed] else [];
    var b := if m.oh.Open? then [ObjClosed(m.oh.oid)] else [];
    var c := match m.ktype case TypeRef(t) => [KeyTypeReleased(t)] case NoType => [];
    var d := match m.vtype case TypeRef(t) => [ValueTypeReleased(t)] case NoType => [];
    assert Teardown(m) == a + b + c + d + [StructFreed];
    forall x
      ensures x in Teardown(m) <==> x in a || x in b || x in c || x in d || x == StructFreed
    {
    }
  }

  /** The first release error, if any. */
  function TeardownStatus(m: MapObj, f: CloseFaults): (s: Outcome)
    ensures s.Pass? <==> !(m.oh.Open? && f.objClose) && !(m.ktype.TypeRef? && f.keyDec)
                         && !(m.vtype.TypeRef? && f.valueDec)
  {
    if m.oh.Open? && f.objClose then Fail(ObjectCloseFailed)
    else if (m.ktype.TypeRef? && f.keyDec) || (m.vtype.TypeRef? && f.valueDec) then Fail(TypeReleaseFailed)
    else Pass
  }

  /** H5_daos_map_close: drop one reference; only the last one releases the
      handle and both type ids. A NULL map is an argument error. */
  function Close(m: Option<MapObj>, f: CloseFaults): (c: Closed)
    requires m.Some? ==> m.value.rc >= 1
    ensures m.None? ==> c == Closed(None, [], Fail(NullArgument))
    ensures m.Some? && m.value.rc > 1 ==>
              c.remaining == Some(m.value.(rc := m.value.rc - 1)) && c.released == [] && c.status == Pass
    ensures m.Some? && m.value.rc == 1 ==>
              c.remaining.None? && c.released == Teardown(m.value) && c.status == TeardownStatus(m.value, f)
    ensures c.status.Fail? ==> c.released != [] || m.None?
  {
    match m
    case None => Closed(None, [], Fail(NullArgument))
    case Some(obj) =>
      if obj.rc - 1 == 0 then Closed(None, Teardown(obj), TeardownStatus(obj, f))
      else Closed(Some(obj.(rc := obj.rc - 1)), [], Pass)
  }

  /** Closing `k` times, with no release errors: the remaining object and
      everything released along the way. */
  function CloseTimes(m: MapObj, k: nat): (c: Closed)
    requires 1 <= m.rc && k <= m.rc
    decreases k
  {
    if k == 0 then Closed(Some(m), [], Pass)
    else
      var once := Close(Some(m), NoCloseFaults);
      if once.remaining.None? then once
      else
        var rest := CloseTimes(once.remaining.value, k - 1);
        Closed(rest.remaining, once.released + rest.released, rest.status)
  }

  /** A map opened `rc` times stays live through the first `rc - 1` closes,
      releasing nothing, and the close that takes the count to zero releases
      the handle and both types exactly once. */
  lemma {:induction false} CloseTimesReleasesOnce(m: MapObj, k: nat)
    requires 1 <= m.rc && k <= m.rc
    ensures k < m.rc ==> CloseTimes(m, k) == Closed(Some(m.(rc := m.rc - k)), [], Pass)
    ensures k == m.rc ==> CloseTimes(m, k).remaining.None? && CloseTimes(m, k).released == Teardown(m)
    decreases k
  {
    if k > 0 {
      var once := Close(Some(m), NoCloseFaults);
      if m.rc == 1 {
        assert CloseTimes(m, k) == once;
      } else {
        var next := m.(rc := m.rc - 1);
        assert once == Closed(Some(next), [], Pass);
        CloseTimesReleasesOnce(next, k - 1);
        var rest := CloseTimes(next, k - 1);
        assert CloseTimes(m, k) == Closed(rest.remaining, [] + rest.released, rest.status);
        assert [] + rest.released == rest.released;
        assert next.(rc := next.rc - (k - 1)) == m.(rc := m.rc - k);
      }
    }
  }
}

=== FILE: map_open.dfy ===
/** H5_daos_map_open: the lead process opens the map object, reads the
    serialized key and value types, and broadcasts them in a map-info
    envelope; the other processes receive the envelope instead of reading the
    store. Broadcasts are modelled as an ordered list of messages: the leader's
    run yields the messages it sends, a follower's run consumes an inbox. */
module MapOpen {
  import opened Bytes
  import opened Outcomes
  import opened Envelope
  import opened MapObject

  /** One process's view of the group for this call. */
  datatype Group = Group(fileCollective: bool, maplCollective: bool, rank: nat, numProcs: nat)

  /** Collective metadata access: set by the file, or else by the map access
      property list. */
  predicate Collective(g: Group) {
    g.fileCollective || g.maplCollective
  }

  /** The process that opens the map itself. */
  predicate IsLeader(g: Group) {
    !Collective(g) || g.rank == 0
  }

  /** must_bcast: a collective leader with other processes waiting on it. */
  predicate MustBcast(g: Group) {
    Collective(g) && g.numProcs > 1
  }

  /** The location parameters: open by address, open by name (the name may
      be NULL), or a location type the connector does not support. */
  datatype Loc = ByAddr(addr: u64) | BySelf(name: Option<seq<char>>) | OtherLoc

  /** The call's pointer arguments (NULL or not) and location. */
  datatype Call = Call(itemPresent: bool, locPresent: bool, loc: Loc)

  /** The external calls of the open path that can report an error. Bcast1 and
      Bcast2 are the first and second MPI_Bcast of either role. */
  datatype Step =
    | CollProp | StructAlloc | Traverse | LinkFollow | ObjOpen | SizeFetch
    | BufAlloc | DataFetch | Bcast1 | Bcast2 | KeyDecode | ValueDecode

  /** Everything the open path gets from outside: the oid that address
      generation or link following yields, the stored key and value type
      blobs (empty when absent), the bytes already in the static buffer, and
      the first external call that fails, if it is reached. */
  datatype Env = Env(located: Oid, ktype: seq<byte>, vtype: seq<byte>, stale: seq<byte>, fault: Option<Step>)

  predicate Fails(env: Env, s: Step) {
    env.fault == Some(s)
  }

  /** INT_MAX: the largest count MPI_Bcast takes. */
  const MAX_INT: nat := 0x7fff_ffff

  /** The stored blobs fit a broadcast: the 64-bit sums and the int count of
      the second broadcast are exact. */
  predicate Addressable(env: Env) {
    |env.ktype| + |env.vtype| + HEADER_SIZE <= MAX_INT
  }

  datatype Event =
    | ObjOpened(oid: Oid)
    | SizesFetched
    | HeapAlloc(n: nat)
    | MetadataFetched
    | Bcast(data: seq<byte>)
    | Received(data: seq<byte>)
    | TypeDecoded(at: seq<byte>)
    | Released(r: Release)
    | HeapFree(n: nat)

  datatype OpenedMap = OpenedMap(oid: Oid, ktype: seq<byte>, vtype: seq<byte>)

  /** A run ends with the map open, with an error, or waiting forever on a
      broadcast that never comes. */
  datatype Status = Opened(m: OpenedMap) | Failed(error: Error) | Blocked

  datatype Run = Run(trace: seq<Event>, status: Status)

  /** The state on reaching `done:`: events so far, status, the map struct as
      far as it was built, and the size of the dynamic buffer if one was
      allocated. */
  datatype Stage = Stage(trace: seq<Event>, status: Status, obj: MapObj, dyn: Option<nat>)

  function Min(a: nat, b: nat): nat {
    if a <= b then a else b
  }

  /** The first `n` bytes at p, as far as the buffer reaches. */
  function Take(s: seq<byte>, n: nat): seq<byte> {
    s[..Min(n, |s|)]
  }

  /** The bytes at p + n, as far as the buffer reaches. */
  function Drop(s: seq<byte>, n: nat): seq<byte> {
    s[Min(n, |s|)..]
  }

  /** A trace's footprint, kind by kind and in order: messages sent and
      received, objects opened, dynamic buffers allocated and freed, and what
      closing the map released. */
  datatype Tally = Tally(sent: seq<seq<byte>>, got: seq<seq<byte>>, objects: seq<Oid>,
                         allocs: seq<nat>, freed: seq<nat>, released: seq<Release>)

  const NoTally: Tally := Tally([], [], [], [], [], [])

  function Plus(a: Tally, b: Tally): Tally {
    Tally(a.sent + b.sent, a.got + b.got, a.objects + b.objects,
          a.allocs + b.allocs, a.freed + b.freed, a.released + b.released)
  }

  function Footprint(e: Event): Tally {
    match e
    case ObjOpened(oid) => NoTally.(objects := [oid])
    case HeapAlloc(n) => NoTally.(allocs := [n])
    case Bcast(data) => NoTally.(sent := [data])
    case Received(data) => NoTally.(got := [data])
    case Released(r) => NoTally.(released := [r])
    case HeapFree(n) => NoTally.(freed := [n])
    case _ => NoTally
  }

  function TallyOf(t: seq<Event>): Tally {
    if |t| == 0 then NoTally else Plus(Footprint(t[0]), TallyOf(t[1..]))
  }

  /** The messages a trace broadcasts, in order. */
  function Sent(t: seq<Event>): seq<seq<byte>> {
    TallyOf(t).sent
  }

  /** The messages a trace receives, in order. */
  function Got(t: seq<Event>): seq<seq<byte>> {
    TallyOf(t).got
  }

  function ReleaseEvents(rs: seq<Release>): seq<Event>
  {
    seq(|rs|, i requires 0 <= i < |rs| => Released(rs[i]))
  }

  function Frees(dyn: Option<nat>): seq<Event> {
    match dyn
    case None => []
    case Some(n) => [HeapFree(n)]
  }

  /** The `done:` label: a failed leader that promised a broadcast sends an
      all-zero static buffer, a failed open closes the half-built map, and the
      dynamic buffer is freed on every exit. A blocked process never gets
      here. */
  function Finish(st: Stage, mustBcast: bool, S: nat): Run {
    match st.status
    case Blocked => Run(st.trace, Blocked)
    case Opened(_) => Run(st.trace + Frees(st.dyn), st.status)
    case Failed(_) =>
      Run(st.trace + (if mustBcast then [Bcast(Zeros(S))] else [])
          + ReleaseEvents(Teardown(st.obj)) + Frees(st.dyn), st.status)
  }

  // ---------------------------------------------------------------------
  // Shared tail: decoding the two types at p

  /** H5Tdecode at p, then at p + ktype_len; `window` is the tot_len bytes at
      p (as far as the buffer reaches). */
  function DecodeTypes(t: seq<Event>, oid: Oid, window: seq<byte>, klen: nat, obj: MapObj,
                       dyn: Option<nat>, fault: Option<Step>): Stage
  {
    if fault == Some(KeyDecode) then Stage(t, Failed(TypeDecodeFailed), obj, dyn)
    else
      var kt := Take(window, klen);
      var t1 := t + [TypeDecoded(window)];
      var obj1 := obj.(ktype := TypeRef(kt));
      if fault == Some(ValueDecode) then Stage(t1, Failed(TypeDecodeFailed), obj1, dyn)
      else
        var vt := Drop(window, klen);
        Stage(t1 + [TypeDecoded(vt)], Opened(OpenedMap(oid, kt, vt)), obj1.(vtype := TypeRef(vt)), dyn)
  }

  // ---------------------------------------------------------------------
  // The leader

  function TotLen(env: Env): nat {
    |env.ktype| + |env.vtype|
  }

  /** The header the leader encodes. */
  function LeaderHeader(oid: Oid, env: Env): Header
    requires Addressable(env)
  {
    Header(oid.lo, oid.hi, |env.ktype|, |env.vtype|)
  }

  /** minfo_buf after the header is encoded: the dynamic buffer holds exactly
      header and payload; the static one keeps its old bytes after them. */
  function MinfoBuf(S: nat, oid: Oid, env: Env): (b: seq<byte>)
    requires S >= HEADER_SIZE && |env.stale| == S && Addressable(env)
    ensures |b| >= S
  {
    var full := EncodeHeader(LeaderHeader(oid, env)) + env.ktype + env.vtype;
    if TotLen(env) + HEADER_SIZE > S then full else full + env.stale[HEADER_SIZE + TotLen(env)..]
  }

  /** The first broadcast: sizeof(minfo_buf_static) bytes from minfo_buf. */
  function FirstMessage(S: nat, oid: Oid, env: Env): seq<byte>
    requires S >= HEADER_SIZE && |env.stale| == S && Addressable(env)
  {
    MinfoBuf(S, oid, env)[..S]
  }

  /** Everything a successful collective leader broadcasts. */
  function Messages(S: nat, oid: Oid, env: Env): seq<seq<byte>>
    requires S >= HEADER_SIZE && |env.stale| == S && Addressable(env)
  {
    [FirstMessage(S, oid, env)]
    + (if TotLen(env) + HEADER_SIZE > S then [env.ktype + env.vtype] else [])
  }

  /** Lines 273-292: where the map is; both branches yield `env.located`. */
  function LeaderBody(g: Group, S: nat, call: Call, env: Env): Stage
    requires S >= HEADER_SIZE && |env.stale| == S && Addressable(env)
  {
    if call.loc.OtherLoc? then Stage([], Failed(UnsupportedLocation), Fresh, None)
    else if call.loc.BySelf? && call.loc.name.None? then Stage([], Failed(NullArgument), Fresh, None)
    else if call.loc.BySelf? && Fails(env, Traverse) then Stage([], Failed(TraverseFailed), Fresh, None)
    else if call.loc.BySelf? && Fails(env, LinkFollow) then Stage([], Failed(LinkFollowFailed), Fresh, None)
    else if Fails(env, ObjOpen) then Stage([], Failed(ObjectOpenFailed), Fresh, None)
    else LeaderFetch(g, S, env, env.located)
  }

  /** Lines 298-351: probe the two type sizes, allocate a dynamic buffer when
      the envelope does not fit the static one, fetch the types after the
      header space. */
  function LeaderFetch(g: Group, S: nat, env: Env, oid: Oid): Stage
    requires S >= HEADER_SIZE && |env.stale| == S && Addressable(env)
  {
    var obj := Fresh.(oh := Open(oid));
    var t0 := [ObjOpened(oid)];
    if Fails(env, SizeFetch) then Stage(t0, Failed(SizeFetchFailed), obj, None)
    else
      var t1 := t0 + [SizesFetched];
      var tot := TotLen(env);
      if |env.ktype| == 0 || |env.vtype| == 0 then Stage(t1, Failed(MetadataNotFound), obj, None)
      else if tot + HEADER_SIZE > S && Fails(env, BufAlloc) then Stage(t1, Failed(BufferAllocFailed), obj, None)
      else
        var dyn := if tot + HEADER_SIZE > S then Some(tot + HEADER_SIZE) else None;
        var t2 := t1 + (if tot + HEADER_SIZE > S then [HeapAlloc(tot + HEADER_SIZE)] else []);
        if Fails(env, DataFetch) then Stage(t2, Failed(MetadataFetchFailed), obj, dyn)
        else LeaderSend(g, S, env, oid, obj, t2 + [MetadataFetched], dyn)
  }

  /** Lines 353-378: encode the header and broadcast; a second broadcast of
      the payload alone when the envelope did not fit the static buffer. */
  function LeaderSend(g: Group, S: nat, env: Env, oid: Oid, obj: MapObj, t: seq<Event>, dyn: Option<nat>): Stage
    requires S >= HEADER_SIZE && |env.stale| == S && Addressable(env)
  {
    var payload := env.ktype + env.vtype;
    if !MustBcast(g) then DecodeTypes(t, oid, payload, |env.ktype|, obj, dyn, env.fault)
    else if Fails(env, Bcast1) then Stage(t, Failed(BroadcastFailed), obj, dyn)
    else
      var t1 := t + [Bcast(FirstMessage(S, oid, env))];
      if TotLen(env) + HEADER_SIZE <= S then DecodeTypes(t1, oid, payload, |env.ktype|, obj, dyn, env.fault)
      else if Fails(env, Bcast2) then Stage(t1, Failed(SecondBroadcastFailed), obj, dyn)
      else DecodeTypes(t1 + [Bcast(payload)], oid, payload, |env.ktype|, obj, dyn, env.fault)
  }

  // ---------------------------------------------------------------------
  // A follower

  /** Lines 380-383: receive the static buffer. A receive with nothing
      left to receive blocks; one whose count differs from the message's
      fails. */
  function FollowerBody(S: nat, env: Env, inbox: seq<seq<byte>>): Stage
    requires S >= HEADER_SIZE
  {
    if |inbox| == 0 then Stage([], Blocked, Fresh, None)
    else if Fails(env, Bcast1) || |inbox[0]| != S then Stage([], Failed(ReceiveFailed), Fresh, None)
    else FollowerDecode(S, env, inbox, DecodeHeader(inbox[0]))
  }

  /** Lines 385-400: the header `h` of the first message; a zero ktype_len
      is the leader's failure signal. Lengths are 64-bit and wrap. */
  function FollowerDecode(S: nat, env: Env, inbox: seq<seq<byte>>, h: Header): Stage
    requires S >= HEADER_SIZE && |inbox| > 0 && |inbox[0]| == S
  {
    var oid := Oid(h.lo, h.hi);
    var tot := (h.klen + h.vlen) % TWO64;
    if h.klen == 0 then Stage([Received(inbox[0])], Failed(LeaderFailed), Fresh, None)
    else if (tot + HEADER_SIZE) % TWO64 > S then FollowerSecond(S, env, inbox, oid, h.klen, tot)
    else FollowerOpen([Received(inbox[0])], oid, Take(inbox[0][HEADER_SIZE..], tot), h.klen, None, env)
  }

  /** Lines 403-415: the payload did not fit beside the header; receive it
      on its own, into a dynamic buffer when it exceeds the static one. */
  function FollowerSecond(S: nat, env: Env, inbox: seq<seq<byte>>, oid: Oid, klen: nat, tot: nat): Stage
    requires |inbox| > 0
  {
    var t0 := [Received(inbox[0])];
    if tot > S && Fails(env, BufAlloc) then Stage(t0, Failed(BufferAllocFailed), Fresh, None)
    else
      var dyn := if tot > S then Some(tot) else None;
      var t1 := t0 + (if tot > S then [HeapAlloc(tot)] else []);
      if |inbox| < 2 then Stage(t1, Blocked, Fresh, dyn)
      else if Fails(env, Bcast2) || |inbox[1]| != tot then Stage(t1, Failed(SecondReceiveFailed), Fresh, dyn)
      else FollowerOpen(t1 + [Received(inbox[1])], oid, inbox[1], klen, dyn, env)
  }

  /** Lines 417-419, then the shared decode. */
  function FollowerOpen(t: seq<Event>, oid: Oid, window: seq<byte>, klen: nat, dyn: Option<nat>, env: Env): Stage
  {
    if Fails(env, ObjOpen) then Stage(t, Failed(ObjectOpenFailed), Fresh, dyn)
    else DecodeTypes(t + [ObjOpened(oid)], oid, window, klen, Fresh.(oh := Open(oid)), dyn, env.fault)
  }

  // ---------------------------------------------------------------------
  // The whole call

  /** The checks every process makes before it knows its role passed. */
  predicate Started(g: Group, call: Call, env: Env) {
    && call.itemPresent && call.locPresent
    && !(!g.fileCollective && Fails(env, CollProp))
    && !Fails(env, StructAlloc)
  }

  /** H5_daos_map_open for one process of the group, with buffer size
      S = H5_DAOS_DINFO_BUF_SIZE. */
  function RunOpen(g: Group, S: nat, call: Call, env: Env, inbox: seq<seq<byte>>): Run
    requires S >= HEADER_SIZE && |env.stale| == S && Addressable(env)
  {
    if !call.itemPresent || !call.locPresent then Run([], Failed(NullArgument))
    else if !g.fileCollective && Fails(env, CollProp) then Run([], Failed(CollectivePropertyUnavailable))
    else if Fails(env, StructAlloc) then Run([], Failed(StructAllocFailed))
    else if IsLeader(g) then Finish(LeaderBody(g, S, call, env), MustBcast(g), S)
    else Finish(FollowerBody(S, env, inbox), false, S)
  }
}

=== FILE: map_values.dfy ===
/** The value paths of a map: H5_daos_map_set, H5_daos_map_get,
    H5_daos_map_exists and H5_daos_map_get_count, over an abstract store that
    maps each dkey (the key's bytes) to the single value stored under the
    map's value akey. */
module MapValues {
  import opened Bytes
  import opened Outcomes
  import opened Datatypes

  /** The user records of one map object: dkey bytes to value bytes. */
  type Kv = map<seq<byte>, seq<byte>>

  /** The bytes daos_iov_set points the dkey at: the first `size` bytes at the
      key buffer's address. For an hvl_t key that is the descriptor's own
      memory, not its data. */
  function KeyBytes(key: Value, size: nat): seq<byte>
    requires key.Plain? ==> size <= |key.bytes|
    requires key.Hvl? ==> size <= |key.raw|
  {
    match key
    case Plain(b) => b[..size]
    case Hvl(_, _, raw) => raw[..size]
  }

  /** The dkey a key buffer addresses, or the error get_size reports. */
  function DKey(kt: TypeArg, key: Value): (r: Result<seq<byte>>)
    requires Fits(kt, key)
    ensures r.Ok? <==> GetSize(kt, key).Ok?
    ensures r.Ok? ==> |r.value| == GetSize(kt, key).value.size
  {
    match GetSize(kt, key)
    case Err(e) => Err(e)
    case Ok(s) => Ok(KeyBytes(key, s.size))
  }

  /** The bytes map_set sends: the data an hvl_t points to for a VLEN
      value, otherwise the bytes at the value buffer's address. */
  function Record(value: Value, s: Sized): seq<byte>
    requires s.cls == Vlen ==> value.Hvl? && s.size <= |value.data|
    requires s.cls != Vlen ==> value.Plain? && s.size <= |value.bytes|
  {
    if s.cls == Vlen then value.data[..s.size] else value.bytes[..s.size]
  }

  /** The probe (a fetch with DAOS_REC_ANY): the size of the stored value, 0
      when the key has none. */
  function Probe(kv: Kv, dkey: seq<byte>): (n: nat)
    ensures n == 0 <==> dkey !in kv || kv[dkey] == []
  {
    if dkey in kv then |kv[dkey]| else 0
  }

  /** H5_daos_map_set: stores the value under the key's bytes; NULL pointers
      fail before any size is computed. Only that one record changes. */
  function Set(kv: Option<Kv>, kt: TypeArg, key: Option<Value>, vt: TypeArg, value: Option<Value>,
               updateFails: bool): (r: Result<Kv>)
    requires key.Some? ==> Fits(kt, key.value)
    requires value.Some? ==> Fits(vt, value.value)
    ensures kv.None? || key.None? || value.None? ==> r == Err(NullArgument)
    ensures r.Ok? <==> && kv.Some? && key.Some? && value.Some?
                       && DKey(kt, key.value).Ok? && GetSize(vt, value.value).Ok? && !updateFails
    ensures r.Ok? ==>
              var d := DKey(kt, key.value).value;
              && r.value.Keys == kv.value.Keys + {d}
              && |r.value[d]| == GetSize(vt, value.value).value.size
              && forall k :: k in kv.value && k != d ==> r.value[k] == kv.value[k]
  {
    if kv.None? || key.None? || value.None? then Err(NullArgument)
    else
      match DKey(kt, key.value)
      case Err(_) => Err(KeySizeUnavailable)
      case Ok(d) =>
        match GetSize(vt, value.value)
        case Err(_) => Err(ValueSizeUnavailable)
        case Ok(s) =>
          if updateFails then Err(SetFailed)
          else Ok(kv.value[d := Record(value.value, s)])
  }

  /** What map_get leaves for the caller: the fetched element (None when the
      store had no record, so the buffer is untouched), a newly allocated
      string, or an hvl_t whose `len` is set to the record's byte count. */
  datatype Fetched =
    | FixedOut(rec: Option<seq<byte>>)
    | StrOut(chars: seq<byte>)
    | VlOut(len: nat, data: seq<byte>)

  /** A stored record longer than the buffer a single-value fetch offers:
      DAOS refuses such a fetch (-DER_REC2BIG) rather than truncate it. */
  predicate TooBig(kv: Kv, d: seq<byte>, size: nat) {
    d in kv && |kv[d]| > size
  }

  /** H5_daos_map_get: a fixed-size value is fetched straight into the
      caller's buffer of the value type's size; a variable-length one is
      probed for its size, then fetched. */
  function Get(kv: Option<Kv>, kt: TypeArg, key: Option<Value>, vt: TypeArg, valuePresent: bool,
               probeFails: bool, fetchFails: bool): (r: Result<Fetched>)
    requires key.Some? ==> Fits(kt, key.value)
    ensures kv.None? || key.None? || !valuePresent ==> r == Err(NullArgument)
    ensures r.Ok? <==> && kv.Some? && key.Some? && valuePresent
                       && DKey(kt, key.value).Ok? && DtypeInfo(vt).Ok? && !fetchFails
                       && !(DtypeInfo(vt).value.isVl && probeFails)
                       && !(!DtypeInfo(vt).value.isVl
                            && TooBig(kv.value, DKey(kt, key.value).value, DtypeInfo(vt).value.size))
    ensures && kv.Some? && key.Some? && valuePresent && DKey(kt, key.value).Ok? && DtypeInfo(vt).Ok?
            && !DtypeInfo(vt).value.isVl
            && TooBig(kv.value, DKey(kt, key.value).value, DtypeInfo(vt).value.size)
            ==> r == Err(GetFailed)
    ensures r.Ok? ==>
              var d := DKey(kt, key.value).value;
              var stored := if d in kv.value then kv.value[d] else [];
              match r.value
              case FixedOut(rec) =>
                && !DtypeInfo(vt).value.isVl && rec == (if d in kv.value then Some(kv.value[d]) else None)
                && (rec.Some? ==> |rec.value| <= DtypeInfo(vt).value.size)
              case StrOut(chars) => IsVarString(vt.dt) && chars == stored
              case VlOut(len, data) => vt.dt.cls == Vlen && data == stored && len == |stored|
  {
    if kv.None? || key.None? || !valuePresent then Err(NullArgument)
    else
      match DKey(kt, key.value)
      case Err(_) => Err(KeySizeUnavailable)
      case Ok(d) =>
        match DtypeInfo(vt)
        case Err(_) => Err(ValueSizeUnavailable)
        case Ok(info) =>
          if !info.isVl then
            if fetchFails || TooBig(kv.value, d, info.size) then Err(GetFailed)
            else Ok(FixedOut(if d in kv.value then Some(kv.value[d]) else None))
          else if probeFails then Err(GetFailed)
          else
            var size := Probe(kv.value, d);
            var rec := if d in kv.value then kv.value[d] else [];
            if fetchFails then Err(GetFailed)
            else if info.cls == String then Ok(StrOut(rec))
            else Ok(VlOut(size, rec))
  }

  /** H5_daos_map_exists: a probe; the key exists iff the probed size is
      nonzero, so a record of zero bytes reads as absent. */
  function Exists(kv: Option<Kv>, kt: TypeArg, key: Option<Value>, existsPresent: bool,
                  probeFails: bool): (r: Result<bool>)
    requires key.Some? ==> Fits(kt, key.value)
    ensures kv.None? || key.None? || !existsPresent ==> r == Err(NullArgument)
    ensures r.Ok? <==> kv.Some? && key.Some? && existsPresent && DKey(kt, key.value).Ok? && !probeFails
    ensures r.Ok? ==>
              var d := DKey(kt, key.value).value;
              (r.value <==> d in kv.value && kv.value[d] != [])
  {
    if kv.None? || key.None? || !existsPresent then Err(NullArgument)
    else
      match DKey(kt, key.value)
      case Err(_) => Err(KeySizeUnavailable)
      case Ok(d) =>
        if probeFails then Err(GetFailed)
        else Ok(Probe(kv.value, d) != 0)
  }

  /** A value round-trips through set and get. A fixed element comes back
      byte for byte, a variable-length string comes back with its
      terminator, and a VLEN comes back with its data but with `len` set to
      the byte count rather than the element count. */
  lemma SetThenGet(kv: Kv, kt: TypeArg, key: Value, vt: TypeArg, value: Value, kv': Kv)
    requires Fits(kt, key) && Fits(vt, value)
    requires Set(Some(kv), kt, Some(key), vt, Some(value), false) == Ok(kv')
    ensures vt.Datatype?
    ensures var g := Get(Some(kv'), kt, Some(key), vt, true, false, false);
            && g.Ok?
            && (IsFixed(vt.dt) ==> g.value == FixedOut(Some(value.bytes[..vt.dt.size])))
            && (IsVarString(vt.dt) ==>
                  g.value == StrOut(value.bytes[..StrLen(value.bytes) + 1]))
            && (vt.dt.cls == Vlen ==>
                  g.value == VlOut(vt.dt.superSize.value * value.len, value.data))
  {
    var d := DKey(kt, key).value;
    var s := GetSize(vt, value).value;
    assert kv' == kv[d := Record(value, s)];
    if vt.dt.cls == Vlen {
      assert value.data[..s.size] == value.data;
    }
  }

  /** The VLEN quirk: `len` survives a set/get round trip exactly when the
      base type is one byte wide (or the sequence is empty). */
  lemma VlenLenRoundTrip(kv: Kv, kt: TypeArg, key: Value, vt: TypeArg, value: Value, kv': Kv)
    requires Fits(kt, key) && Fits(vt, value)
    requires vt.Datatype? && vt.dt.cls == Vlen
    requires Set(Some(kv), kt, Some(key), vt, Some(value), false) == Ok(kv')
    ensures var g := Get(Some(kv'), kt, Some(key), vt, true, false, false);
            g.Ok? && g.value.VlOut? &&
            (g.value.len == value.len <==> vt.dt.superSize.value == 1 || value.len == 0)
  {
    SetThenGet(kv, kt, key, vt, value, kv');
    var s := vt.dt.superSize.value;
    if s * value.len == value.len && value.len != 0 {
      assert s * value.len == 1 * value.len;
    }
  }

  /** Reading a value back with a fixed-size type other than the one it was
      written with: the fetch succeeds exactly when the record fits the
      narrower buffer, and otherwise fails; nothing longer than the read
      type's size ever reaches the caller. */
  lemma ReadWithOtherType(kv: Kv, kt: TypeArg, key: Value, vt: TypeArg, value: Value, kv': Kv, vt2: TypeArg)
    requires Fits(kt, key) && Fits(vt, value)
    requires Set(Some(kv), kt, Some(key), vt, Some(value), false) == Ok(kv')
    requires DtypeInfo(vt2).Ok? && !DtypeInfo(vt2).value.isVl
    ensures var g := Get(Some(kv'), kt, Some(key), vt2, true, false, false);
            && (g.Ok? <==> GetSize(vt, value).value.size <= DtypeInfo(vt2).value.size)
            && (g.Err? ==> g == Err(GetFailed))
            && (g.Ok? ==> g.value.FixedOut? && g.value.rec.Some?
                          && |g.value.rec.value| == GetSize(vt, value).value.size)
  {
    var d := DKey(kt, key).value;
    assert d in kv' && |kv'[d]| == GetSize(vt, value).value.size;
  }

  /** After a set, the key exists exactly when the stored value is nonempty. */
  lemma SetThenExists(kv: Kv, kt: TypeArg, key: Value, vt: TypeArg, value: Value, kv': Kv)
    requires Fits(kt, key) && Fits(vt, value)
    requires Set(Some(kv), kt, Some(key), vt, Some(value), false) == Ok(kv')
    ensures Exists(Some(kv'), kt, Some(key), true, false)
            == Ok(GetSize(vt, value).value.size != 0)
  {
  }

  /** A set leaves every other key's get and exists answers as they were. */
  lemma SetFrame(kv: Kv, kt: TypeArg, key: Value, other: Value, vt: TypeArg, value: Value, kv': Kv)
    requires Fits(kt, key) && Fits(kt, other) && Fits(vt, value)
    requires Set(Some(kv), kt, Some(key), vt, Some(value), false) == Ok(kv')
    requires DKey(kt, other).Ok? && DKey(kt, other) != DKey(kt, key)
    ensures Get(Some(kv'), kt, Some(other), vt, true, false, false)
            == Get(Some(kv), kt, Some(other), vt, true, false, false)
    ensures Exists(Some(kv'), kt, Some(other), true, false)
            == Exists(Some(kv), kt, Some(other), true, false)
  {
    var d := DKey(kt, other).value;
    assert d in kv' <==> d in kv;
    assert d in kv ==> kv'[d] == kv[d];
  }

  /** A key the store has never seen is no error: get succeeds and leaves a
      fixed-size buffer untouched, hands back an empty string or an empty
      hvl_t, and exists answers false. */
  lemma AbsentKey(kv: Kv, kt: TypeArg, key: Value, vt: TypeArg)
    requires Fits(kt, key) && DKey(kt, key).Ok? && DKey(kt, key).value !in kv
    requires DtypeInfo(vt).Ok?
    ensures var g := Get(Some(kv), kt, Some(key), vt, true, false, false);
            && (IsFixed(vt.dt) ==> g == Ok(FixedOut(None)))
            && (IsVarString(vt.dt) ==> g == Ok(StrOut([])))
            && (vt.dt.cls == Vlen ==> g == Ok(VlOut(0, [])))
    ensures Exists(Some(kv), kt, Some(key), true, false) == Ok(false)
  {
  }

  // ---------------------------------------------------------------------
  // Counting keys

  /** One reply of daos_obj_list_dkey: the keys of one batch and whether the
      anchor reached the end, or an error. The call asks for ENUM_DESC_NR
      (5) keys at a time; the count does not depend on the batch size, so a
      batch may hold any number of keys. */
  datatype ListReply = Batch(keys: seq<seq<byte>>, eof: bool) | ListError

  /** The listing stops: some reply fails or reaches the end. */
  predicate Ends(replies: seq<ListReply>) {
    exists i :: 0 <= i < |replies| && (replies[i].ListError? || replies[i].eof)
  }

  lemma EndsTail(replies: seq<ListReply>)
    requires Ends(replies) && replies[0].Batch? && !replies[0].eof
    ensures Ends(replies[1..])
  {
    var i :| 0 <= i < |replies| && (replies[i].ListError? || replies[i].eof);
    assert i > 0 && replies[1..][i - 1] == replies[i];
  }

  /** The keys listed up to and including the batch that reaches the end, or
      the error if a call fails first. */
  function ListedKeys(replies: seq<ListReply>): (r: Result<seq<seq<byte>>>)
    requires Ends(replies)
    ensures r.Err? ==> r.error == ListFailed
    decreases |replies|
  {
    match replies[0]
    case ListError => Err(ListFailed)
    case Batch(keys, eof) =>
      if eof then Ok(keys)
      else
        EndsTail(replies);
        match ListedKeys(replies[1..])
        case Err(e) => Err(e)
        case Ok(rest) => Ok(keys + rest)
  }

  /** The count map_get_count reports: every listed key but the internal
      metadata dkey, as an unsigned 64-bit subtraction. */
  function CountOf(replies: seq<ListReply>): Result<u64>
    requires Ends(replies)
  {
    match ListedKeys(replies)
    case Err(e) => Err(e)
    case Ok(keys) => Ok((|keys| - 1) % TWO64)
  }

  /** H5_daos_map_get_count: lists dkeys in batches until the anchor reaches
      the end, summing the batch sizes in a 64-bit counter, and subtracts one
      for the metadata dkey. */
  method GetCount(kv: Option<Kv>, countPresent: bool, replies: seq<ListReply>) returns (r: Result<u64>)
    requires Ends(replies)
    ensures kv.None? || !countPresent ==> r == Err(NullArgument)
    ensures kv.Some? && countPresent ==> r == CountOf(replies)
  {
    if kv.None? || !countPresent {
      return Err(NullArgument);
    }
    var keyNr: u64 := 0;
    var i := 0;
    var eof := false;
    ghost var seen: seq<seq<byte>> := [];
    assert replies[0..] == replies;
    assert Append([], ListedKeys(replies)) == ListedKeys(replies) by {
      if ListedKeys(replies).Ok? {
        assert [] + ListedKeys(replies).value == ListedKeys(replies).value;
      }
    }
    while !eof
      invariant 0 <= i <= |replies|
      invariant keyNr == |seen| % TWO64
      invariant !eof ==> Ends(replies[i..]) && ListedKeys(replies) == Append(seen, ListedKeys(replies[i..]))
      invariant eof ==> ListedKeys(replies) == Ok(seen)
      decreases |replies| - i, !eof
    {
      match replies[i]
      case ListError =>
        return Err(ListFailed);
      case Batch(keys, e) =>
        ListedStep(replies, i);
        AppendAssoc(seen, keys, if e then Ok([]) else ListedKeys(replies[i + 1..]));
        if |keys| != 0 {
          ModShift(|seen|, |keys|);
          keyNr := (keyNr + |keys|) % TWO64;
        }
        seen := seen + keys;
        eof := e;
        i := i + 1;
    }
    ModShift(|seen|, -1);
    r := Ok((keyNr - 1) % TWO64);
  }

  /** Reducing modulo 2^64 before adding changes nothing modulo 2^64. */
  lemma ModShift(a: int, b: int)
    ensures (a % TWO64 + b) % TWO64 == (a + b) % TWO64
  {
    var q := a / TWO64;
    assert a == q * TWO64 + a % TWO64;
    assert a + b == (a % TWO64 + b) + q * TWO64;
  }

  /** One batch of the listing: what it adds, and where the rest starts. */
  lemma ListedStep(replies: seq<ListReply>, i: nat)
    requires i < |replies| && Ends(replies[i..]) && replies[i].Batch?
    ensures !replies[i].eof ==> Ends(replies[i + 1..])
    ensures ListedKeys(replies[i..])
            == Append(replies[i].keys, if replies[i].eof then Ok([]) else ListedKeys(replies[i + 1..]))
  {
    assert replies[i..][0] == replies[i];
    if !replies[i].eof {
      EndsTail(replies[i..]);
      assert replies[i..][1..] == replies[i + 1..];
    } else {
      assert replies[i].keys + [] == replies[i].keys;
    }
  }

  function Append(pre: seq<seq<byte>>, r: Result<seq<seq<byte>>>): Result<seq<seq<byte>>>
  {
    match r
    case Err(e) => Err(e)
    case Ok(ks) => Ok(pre + ks)
  }

  lemma AppendAssoc(a: seq<seq<byte>>, b: seq<seq<byte>>, r: Result<seq<seq<byte>>>)
    ensures Append(a, Append(b, r)) == Append(a + b, r)
  {
    if r.Ok? {
      assert a + (b + r.value) == (a + b) + r.value;
    }
  }

  predicate Distinct(s: seq<seq<byte>>) {
    forall i, j :: 0 <= i < j < |s| ==> s[i] != s[j]
  }

  lemma {:induction false} DistinctCard(s: seq<seq<byte>>)
    requires Distinct(s)
    ensures |set x | x in s| == |s|
  {
    if |s| > 0 {
      DistinctCard(s[1..]);
      var tail := set x | x in s[1..];
      assert (set x | x in s) == tail + {s[0]};
      assert s[0] !in tail;
    }
  }

  /** When the listing enumerates each dkey of the map object once (the
      metadata dkey and one dkey per stored key), the count is the number of
      stored keys. */
  lemma CountIsStoredKeys(kv: Kv, mdKey: seq<byte>, replies: seq<ListReply>)
    requires Ends(replies) && ListedKeys(replies).Ok?
    requires Distinct(ListedKeys(replies).value)
    requires (set k | k in ListedKeys(replies).value) == kv.Keys + {mdKey}
    requires mdKey !in kv
    requires |kv| < TWO64
    ensures CountOf(replies) == Ok(|kv|)
  {
    var keys := ListedKeys(replies).value;
    DistinctCard(keys);
    var ks := kv.Keys;
    assert mdKey !in ks;
    assert ks + {mdKey} == ks + {mdKey};
    assert |ks + {mdKey}| == |ks| + 1;
    assert |ks| == |kv|;
    assert |keys| == |kv| + 1;
    var n := |keys| - 1;
    assert 0 <= n < TWO64;
    assert n % TWO64 == n;
    assert CountOf(replies) == Ok(n % TWO64);
  }

  /** With no key listed at all the subtraction wraps to 2^64 - 1. */
  lemma EmptyListingWraps(replies: seq<ListReply>)
    requires Ends(replies) && ListedKeys(replies) == Ok([])
    ensures CountOf(replies) == Ok(TWO64 - 1)
  {
  }
}

=== FILE: open_properties.dfy ===
/** The map-open exchange as the group sees it: each process's whole run of
    H5_daos_map_open, and how a follower's run depends on what the leader's
    run broadcast. */
module OpenProperties {
  import opened Bytes
  import opened Outcomes
  import opened Envelope
  import opened MapObject
  import opened MapOpen
  import opened OpenProtocol

  /** The model's standing assumptions on one call. */
  predicate Valid(S: nat, env: Env) {
    S >= HEADER_SIZE && |env.stale| == S && Addressable(env)
  }

  // ---------------------------------------------------------------------
  // The envelope

  /** The first message is exactly the static buffer's size, starts with the
      header the leader encoded, and, when the payload fits beside the header,
      carries the payload right after it. */
  lemma FirstMessageFacts(S: nat, oid: Oid, env: Env)
    requires Valid(S, env)
    ensures |FirstMessage(S, oid, env)| == S
    ensures DecodeHeader(FirstMessage(S, oid, env)) == LeaderHeader(oid, env)
    ensures TotLen(env) + HEADER_SIZE <= S ==>
              Take(FirstMessage(S, oid, env)[HEADER_SIZE..], TotLen(env)) == env.ktype + env.vtype
  {
    var h := LeaderHeader(oid, env);
    var hdr := EncodeHeader(h);
    var payload := env.ktype + env.vtype;
    var tail := if TotLen(env) + HEADER_SIZE > S then [] else env.stale[HEADER_SIZE + TotLen(env)..];
    var x := payload + tail;
    assert MinfoBuf(S, oid, env) == hdr + x;
    var m := FirstMessage(S, oid, env);
    assert m == hdr + x[..S - HEADER_SIZE];
    HeaderRoundTrip(h, x[..S - HEADER_SIZE]);
    if TotLen(env) + HEADER_SIZE <= S {
      assert m[HEADER_SIZE..] == x[..S - HEADER_SIZE];
      assert x[..S - HEADER_SIZE][..TotLen(env)] == payload;
    }
  }

  // ---------------------------------------------------------------------
  // The leader

  /** A leader's run past the early checks: its body, then `done:`. */
  lemma LeaderRun(g: Group, S: nat, call: Call, env: Env, inbox: seq<seq<byte>>)
    requires Valid(S, env) && IsLeader(g) && Started(g, call, env)
    ensures var r := RunOpen(g, S, call, env, inbox);
      var st := LeaderBody(g, S, call, env);
      var f := TallyOf(r.trace);
      && r.status == st.status
      && LeaderShape(S, env, env.located, st)
      && LeaderSends(g, S, env, env.located, st)
      && f.got == [] && f.objects == TallyOf(st.trace).objects && f.allocs == TallyOf(st.trace).allocs
      && f.freed == f.allocs
      && (r.status.Opened? ==> f.sent == Sent(st.trace) && f.released == [])
      && (r.status.Failed? ==>
            f.sent == Sent(st.trace) + (if MustBcast(g) then [Zeros(S)] else []) && f.released == Teardown(st.obj))
  {
    var st := LeaderBody(g, S, call, env);
    assert RunOpen(g, S, call, env, inbox) == Finish(st, MustBcast(g), S);
    LeaderBodyShape(g, S, call, env);
    LeaderBodySends(g, S, call, env);
    FinishFacts(st, MustBcast(g), S);
  }

  /** A follower's run past the early checks: its body, then `done:`. */
  lemma FollowerRun(g: Group, S: nat, call: Call, env: Env, inbox: seq<seq<byte>>)
    requires Valid(S, env) && !IsLeader(g) && Started(g, call, env)
    ensures var r := RunOpen(g, S, call, env, inbox);
      var st := FollowerBody(S, env, inbox);
      var f := TallyOf(r.trace);
      && r.status == st.status
      && FollowerShape(S, inbox, st)
      && (r.status.Blocked? ==> r.trace == st.trace)
      && f.sent == [] && f.got == Got(st.trace)
      && f.objects == TallyOf(st.trace).objects && f.allocs == TallyOf(st.trace).allocs
      && (!r.status.Blocked? ==> f.freed == f.allocs)
      && (r.status.Opened? ==> f.released == [])
      && (r.status.Failed? ==> f.released == Teardown(st.obj))
  {
    var st := FollowerBody(S, env, inbox);
    assert RunOpen(g, S, call, env, inbox) == Finish(st, false, S);
    FollowerBodyShape(S, env, inbox);
    FinishFacts(st, false, S);
  }

  /** A leader never waits on anyone; when it opens the map, the map is the
      located object with the two stored types, and it opens it whenever no
      call fails, the arguments and location are usable and both types are
      stored. */
  lemma LeaderOpensStoredTypes(g: Group, S: nat, call: Call, env: Env, inbox: seq<seq<byte>>)
    requires Valid(S, env) && IsLeader(g)
    ensures var r := RunOpen(g, S, call, env, inbox);
      && !r.status.Blocked?
      && (r.status.Opened? ==>
            r.status.m == OpenedMap(env.located, env.ktype, env.vtype) && |env.ktype| > 0 && |env.vtype| > 0)
      && ((env.fault.None? && call.itemPresent && call.locPresent && !call.loc.OtherLoc?
           && call.loc != BySelf(None) && |env.ktype| > 0 && |env.vtype| > 0) ==> r.status.Opened?)
  {
    if Started(g, call, env) {
      LeaderRun(g, S, call, env, inbox);
      if env.fault.None? && !call.loc.OtherLoc? && call.loc != BySelf(None) && |env.ktype| > 0 && |env.vtype| > 0 {
        LeaderBodyOpens(g, S, call, env);
      }
    }
  }

  /** Failing the argument checks, the collective-property lookup or the
      struct allocation leaves no trace at all: no broadcast, even from a
      leader whose group is waiting. */
  lemma EarlyFailureIsSilent(g: Group, S: nat, call: Call, env: Env, inbox: seq<seq<byte>>)
    requires Valid(S, env) && !Started(g, call, env)
    ensures RunOpen(g, S, call, env, inbox).trace == []
    ensures RunOpen(g, S, call, env, inbox).status.Failed?
  {
  }

  /** A leader with nobody to tell broadcasts nothing, whatever happens. */
  lemma SilentWhenAlone(g: Group, S: nat, call: Call, env: Env, inbox: seq<seq<byte>>)
    requires Valid(S, env) && IsLeader(g) && !MustBcast(g)
    ensures Sent(RunOpen(g, S, call, env, inbox).trace) == []
  {
    if Started(g, call, env) {
      LeaderRun(g, S, call, env, inbox);
    }
  }

  /** A collective leader that opens the map broadcasts the envelope (and the
      payload again on its own when it did not fit the static buffer), and
      nothing else; the envelope's ktype_len is never zero. */
  lemma LeaderSendsEnvelope(g: Group, S: nat, call: Call, env: Env, inbox: seq<seq<byte>>)
    requires Valid(S, env) && IsLeader(g) && MustBcast(g)
    requires RunOpen(g, S, call, env, inbox).status.Opened?
    ensures Sent(RunOpen(g, S, call, env, inbox).trace) == Messages(S, env.located, env)
    ensures DecodeHeader(Messages(S, env.located, env)[0]).klen == |env.ktype| > 0
  {
    LeaderRun(g, S, call, env, inbox);
    FirstMessageFacts(S, env.located, env);
  }

  /** A collective leader that fails after the struct is allocated and before
      its first broadcast goes out sends exactly one message: the all-zero
      static buffer, which followers read as ktype_len = 0. */
  lemma FailedLeaderPoisons(g: Group, S: nat, call: Call, env: Env, inbox: seq<seq<byte>>)
    requires Valid(S, env) && IsLeader(g) && MustBcast(g) && Started(g, call, env)
    requires RunOpen(g, S, call, env, inbox).status.Failed?
    requires RunOpen(g, S, call, env, inbox).status.error !in {SecondBroadcastFailed, TypeDecodeFailed}
    ensures Sent(RunOpen(g, S, call, env, inbox).trace) == [Zeros(S)]
    ensures DecodeHeader(Zeros(S)).klen == 0
  {
    LeaderRun(g, S, call, env, inbox);
    ZeroHeader(S);
  }

  /** The cleanup does not remember that the real envelope already went out:
      a leader failing at the second broadcast or at decoding still sends the
      all-zero buffer after the real messages. */
  lemma LateFailureStillPoisons(g: Group, S: nat, call: Call, env: Env, inbox: seq<seq<byte>>)
    requires Valid(S, env) && IsLeader(g) && MustBcast(g) && Started(g, call, env)
    ensures var r := RunOpen(g, S, call, env, inbox);
      && (r.status == Failed(SecondBroadcastFailed) ==>
            Sent(r.trace) == [FirstMessage(S, env.located, env), Zeros(S)])
      && (r.status == Failed(TypeDecodeFailed) ==>
            Sent(r.trace) == Messages(S, env.located, env) + [Zeros(S)])
  {
    var r := RunOpen(g, S, call, env, inbox);
    var st := LeaderBody(g, S, call, env);
    LeaderRun(g, S, call, env, inbox);
    if r.status == Failed(SecondBroadcastFailed) {
      assert Sent(st.trace) == [FirstMessage(S, env.located, env)];
      assert Sent(r.trace) == [FirstMessage(S, env.located, env)] + [Zeros(S)];
    } else if r.status == Failed(TypeDecodeFailed) {
      assert Sent(st.trace) == Messages(S, env.located, env);
    }
  }

  /** The leader allocates a dynamic buffer only for an envelope larger than
      the static buffer, exactly header plus payload, at most once; on success
      exactly when the envelope is that large; and frees it on every exit. */
  lemma LeaderHeap(g: Group, S: nat, call: Call, env: Env, inbox: seq<seq<byte>>)
    requires Valid(S, env) && IsLeader(g)
    ensures var f := TallyOf(RunOpen(g, S, call, env, inbox).trace);
      && (f.allocs == [] || (f.allocs == [TotLen(env) + HEADER_SIZE] && TotLen(env) + HEADER_SIZE > S))
      && (RunOpen(g, S, call, env, inbox).status.Opened? ==>
            (f.allocs == [TotLen(env) + HEADER_SIZE] <==> TotLen(env) + HEADER_SIZE > S))
      && f.freed == f.allocs
  {
    if Started(g, call, env) {
      LeaderRun(g, S, call, env, inbox);
    }
  }

  // ---------------------------------------------------------------------
  // A follower

  /** A follower that finds nothing broadcast waits forever. */
  lemma FollowerWaitsForLeader(g: Group, S: nat, call: Call, env: Env)
    requires Valid(S, env) && !IsLeader(g) && Started(g, call, env)
    ensures RunOpen(g, S, call, env, []) == Run([], Blocked)
  {
  }

  /** A follower receiving a zero ktype_len fails at once: it received one
      message, opened nothing, allocated nothing, decoded no type and tries
      no second receive; all it does after the receive is free its struct. */
  lemma PoisonStopsFollower(g: Group, S: nat, call: Call, env: Env, inbox: seq<seq<byte>>)
    requires Valid(S, env) && !IsLeader(g) && Started(g, call, env)
    requires |inbox| > 0 && |inbox[0]| == S && !Fails(env, Bcast1)
    requires DecodeHeader(inbox[0]).klen == 0
    ensures var r := RunOpen(g, S, call, env, inbox);
      && r.status == Failed(LeaderFailed)
      && Got(r.trace) == [inbox[0]]
      && TallyOf(r.trace).objects == [] && TallyOf(r.trace).allocs == []
      && r.trace == [Received(inbox[0]), Released(StructFreed)]
  {
    var st := FollowerBody(S, env, inbox);
    var t0 := [Received(inbox[0])];
    assert st == Stage(t0, Failed(LeaderFailed), Fresh, None);
    One(Received(inbox[0]));
    FinishFacts(st, false, S);
  }

  /** A follower never broadcasts, only receives messages in the order
      they were sent, allocates a dynamic buffer only for a payload larger
      than the static buffer, of exactly the tot_len the first message's
      header announces, and frees it unless it is still waiting. */
  lemma FollowerFootprint(g: Group, S: nat, call: Call, env: Env, inbox: seq<seq<byte>>)
    requires Valid(S, env) && !IsLeader(g)
    ensures var r := RunOpen(g, S, call, env, inbox);
      var f := TallyOf(r.trace);
      && f.sent == []
      && f.got <= inbox
      && (f.allocs == [] || (|f.allocs| == 1 && f.allocs[0] > S))
      && (f.allocs != [] ==>
            && |inbox| > 0 && |inbox[0]| == S
            && var h := DecodeHeader(inbox[0]);
               f.allocs == [(h.klen + h.vlen) % TWO64] && (h.klen + h.vlen) % TWO64 > S)
      && (!r.status.Blocked? ==> f.freed == f.allocs)
  {
    if Started(g, call, env) {
      FollowerRun(g, S, call, env, inbox);
      FollowerBodyBuffer(S, env, inbox);
    }
  }

  /** A follower whose receives and opens succeed, given a successful
      leader's messages (and anything after them), opens the same object with
      the same two types, consuming exactly those messages, with a dynamic
      buffer exactly when the payload exceeds the static buffer. */
  lemma FollowerBodyAdopts(S: nat, env: Env, lenv: Env, oid: Oid, rest: seq<seq<byte>>)
    requires Valid(S, lenv) && env.fault.None? && |lenv.ktype| > 0 && |lenv.vtype| > 0
    ensures var st := FollowerBody(S, env, Messages(S, oid, lenv) + rest);
      && st.status == Opened(OpenedMap(oid, lenv.ktype, lenv.vtype))
      && Got(st.trace) == Messages(S, oid, lenv)
      && st.dyn == (if TotLen(lenv) > S then Some(TotLen(lenv)) else None)
  {
    var inbox := Messages(S, oid, lenv) + rest;
    FirstMessageFacts(S, oid, lenv);
    assert inbox[0] == FirstMessage(S, oid, lenv);
    var h := LeaderHeader(oid, lenv);
    assert FollowerBody(S, env, inbox) == FollowerDecode(S, env, inbox, h);
    if TotLen(lenv) + HEADER_SIZE > S {
      assert inbox[1] == lenv.ktype + lenv.vtype;
      assert Messages(S, oid, lenv) == [inbox[0], inbox[1]];
    } else {
      assert Messages(S, oid, lenv) == [inbox[0]];
    }
    FollowerDecodeAdopts(S, env, lenv, oid, inbox);
  }

  /** The leader's header, decoded by a follower, selects the receive path
      that matches how the leader sent the payload. */
  lemma FollowerDecodeAdopts(S: nat, env: Env, lenv: Env, oid: Oid, inbox: seq<seq<byte>>)
    requires Valid(S, lenv) && env.fault.None? && |lenv.ktype| > 0 && |lenv.vtype| > 0
    requires |inbox| > 0 && inbox[0] == FirstMessage(S, oid, lenv)
    requires TotLen(lenv) + HEADER_SIZE > S ==> |inbox| >= 2 && inbox[1] == lenv.ktype + lenv.vtype
    ensures var st := FollowerDecode(S, env, inbox, LeaderHeader(oid, lenv));
      && st.status == Opened(OpenedMap(oid, lenv.ktype, lenv.vtype))
      && Got(st.trace) == (if TotLen(lenv) + HEADER_SIZE > S then [inbox[0], inbox[1]] else [inbox[0]])
      && st.dyn == (if TotLen(lenv) > S then Some(TotLen(lenv)) else None)
  {
    var h := LeaderHeader(oid, lenv);
    var tot := TotLen(lenv);
    var klen := |lenv.ktype|;
    var payload := lenv.ktype + lenv.vtype;
    LeaderHeaderSizes(oid, lenv);
    DecodeSelects(S, env, inbox, h, oid, tot);
    assert Take(payload, klen) == lenv.ktype && Drop(payload, klen) == lenv.vtype;
    if tot + HEADER_SIZE > S {
      FollowerSecondAdopts(S, env, inbox, oid, klen, tot);
    } else {
      FirstMessageFacts(S, oid, lenv);
      FollowerInlineAdopts(inbox, oid, payload, klen, env);
    }
  }

  /** The sizes a follower reads back from the leader's header: no
      wrap-around, since the envelope is addressable. */
  lemma LeaderHeaderSizes(oid: Oid, env: Env)
    requires Addressable(env)
    ensures var h := LeaderHeader(oid, env);
      && Oid(h.lo, h.hi) == oid && h.klen == |env.ktype|
      && (h.klen + h.vlen) % TWO64 == TotLen(env)
      && (TotLen(env) + HEADER_SIZE) % TWO64 == TotLen(env) + HEADER_SIZE
  {
  }

  /** Which receive path a follower takes for a given header. */
  lemma DecodeSelects(S: nat, env: Env, inbox: seq<seq<byte>>, h: Header, oid: Oid, tot: nat)
    requires S >= HEADER_SIZE && |inbox| > 0 && |inbox[0]| == S
    requires h.klen > 0 && Oid(h.lo, h.hi) == oid && (h.klen + h.vlen) % TWO64 == tot
    requires (tot + HEADER_SIZE) % TWO64 == tot + HEADER_SIZE
    ensures tot + HEADER_SIZE > S ==>
              FollowerDecode(S, env, inbox, h) == FollowerSecond(S, env, inbox, oid, h.klen, tot)
    ensures tot + HEADER_SIZE <= S ==>
              FollowerDecode(S, env, inbox, h)
              == FollowerOpen([Received(inbox[0])], oid, Take(inbox[0][HEADER_SIZE..], tot), h.klen, None, env)
  {
  }

  lemma FollowerInlineAdopts(inbox: seq<seq<byte>>, oid: Oid, window: seq<byte>, klen: nat, env: Env)
    requires |inbox| > 0 && env.fault.None?
    ensures var st := FollowerOpen([Received(inbox[0])], oid, window, klen, None, env);
      && st.status == Opened(OpenedMap(oid, Take(window, klen), Drop(window, klen)))
      && Got(st.trace) == [inbox[0]]
      && st.dyn.None?
  {
    var t0 := [Received(inbox[0])];
    FirstReceived(inbox);
    FollowerOpenTally(t0, oid, window, klen, None, env);
    FollowerOpenStatus(t0, oid, window, klen, None, env);
  }

  lemma FollowerSecondAdopts(S: nat, env: Env, inbox: seq<seq<byte>>, oid: Oid, klen: nat, tot: nat)
    requires env.fault.None? && |inbox| >= 2 && |inbox[1]| == tot
    ensures var st := FollowerSecond(S, env, inbox, oid, klen, tot);
      && st.status == Opened(OpenedMap(oid, Take(inbox[1], klen), Drop(inbox[1], klen)))
      && Got(st.trace) == [inbox[0], inbox[1]]
      && st.dyn == (if tot > S then Some(tot) else None)
  {
    var dyn := if tot > S then Some(tot) else None;
    var t2 := [Received(inbox[0])] + (if tot > S then [HeapAlloc(tot)] else []) + [Received(inbox[1])];
    assert FollowerSecond(S, env, inbox, oid, klen, tot) == FollowerOpen(t2, oid, inbox[1], klen, dyn, env);
    SecondOpenShape(S, env, inbox, oid, klen, tot);
    FollowerOpenStatus(t2, oid, inbox[1], klen, dyn, env);
  }

  // ---------------------------------------------------------------------
  // Leader and follower together

  /** Whatever a successful collective leader sends, a follower that reads
      it (with its own calls succeeding) opens the same map: same object,
      same key type, same value type. */
  lemma OpenAgreement(g1: Group, g2: Group, S: nat, call1: Call, call2: Call, env1: Env, env2: Env,
                      inbox1: seq<seq<byte>>, rest: seq<seq<byte>>)
    requires Valid(S, env1) && Valid(S, env2)
    requires IsLeader(g1) && MustBcast(g1) && RunOpen(g1, S, call1, env1, inbox1).status.Opened?
    requires !IsLeader(g2) && Started(g2, call2, env2) && env2.fault.None?
    ensures var leader := RunOpen(g1, S, call1, env1, inbox1);
      var follower := RunOpen(g2, S, call2, env2, Sent(leader.trace) + rest);
      && follower.status == leader.status
      && Got(follower.trace) == Sent(leader.trace)
  {
    LeaderOpensStoredTypes(g1, S, call1, env1, inbox1);
    LeaderSendsEnvelope(g1, S, call1, env1, inbox1);
    var oid := env1.located;
    FollowerBodyAdopts(S, env2, env1, oid, rest);
    FollowerRun(g2, S, call2, env2, Messages(S, oid, env1) + rest);
  }

  /** A collective leader that fails before its first broadcast makes every
      follower that receives its message fail with "lead process failed"
      instead of waiting. */
  lemma LeaderFailureReachesFollower(g1: Group, g2: Group, S: nat, call1: Call, call2: Call, env1: Env, env2: Env,
                                     inbox1: seq<seq<byte>>, rest: seq<seq<byte>>)
    requires Valid(S, env1) && Valid(S, env2)
    requires IsLeader(g1) && MustBcast(g1) && Started(g1, call1, env1)
    requires RunOpen(g1, S, call1, env1, inbox1).status.Failed?
    requires RunOpen(g1, S, call1, env1, inbox1).status.error !in {SecondBroadcastFailed, TypeDecodeFailed}
    requires !IsLeader(g2) && Started(g2, call2, env2) && !Fails(env2, Bcast1)
    ensures RunOpen(g2, S, call2, env2, Sent(RunOpen(g1, S, call1, env1, inbox1).trace) + rest).status
            == Failed(LeaderFailed)
  {
    FailedLeaderPoisons(g1, S, call1, env1, inbox1);
    var inbox := [Zeros(S)] + rest;
    assert inbox[0] == Zeros(S);
    PoisonStopsFollower(g2, S, call2, env2, inbox);
  }

  /** A leader that fails before the collective check completes leaves a
      waiting follower blocked: the early exits skip the broadcast. */
  lemma SilentLeaderBlocksFollower(g1: Group, g2: Group, S: nat, call1: Call, call2: Call, env1: Env, env2: Env,
                                   inbox1: seq<seq<byte>>)
    requires Valid(S, env1) && Valid(S, env2)
    requires IsLeader(g1) && !Started(g1, call1, env1)
    requires !IsLeader(g2) && Started(g2, call2, env2)
    ensures RunOpen(g2, S, call2, env2, Sent(RunOpen(g1, S, call1, env1, inbox1).trace)).status == Blocked
  {
    assert Sent([]) == [];
  }

  // ---------------------------------------------------------------------
  // Cleanup on failure

  /** The handle a stage holds is the one object its trace opened, so the
      teardown closes every object the trace opened. */
  lemma ClosesWhatItOpened(st: Stage)
    requires Consistent(st)
    ensures |TallyOf(st.trace).objects| <= 1
    ensures forall o :: o in TallyOf(st.trace).objects ==> ObjClosed(o) in Teardown(st.obj)
  {
    TeardownReleasesHeld(st.obj);
  }

  /** A failed open that got as far as allocating the map struct closes it:
      the object it opened is closed, the struct freed last; a successful
      open releases nothing. At most one object is opened per run. */
  lemma FailedOpenReleases(g: Group, S: nat, call: Call, env: Env, inbox: seq<seq<byte>>)
    requires Valid(S, env) && Started(g, call, env)
    ensures var r := RunOpen(g, S, call, env, inbox);
      var f := TallyOf(r.trace);
      && |f.objects| <= 1
      && (r.status.Failed? ==>
            && |f.released| >= 1 && f.released[|f.released| - 1] == StructFreed
            && (forall o :: o in f.objects ==> ObjClosed(o) in f.released))
      && (r.status.Opened? ==> f.released == [])
  {
    var st := if IsLeader(g) then LeaderBody(g, S, call, env) else FollowerBody(S, env, inbox);
    if IsLeader(g) {
      LeaderRun(g, S, call, env, inbox);
    } else {
      FollowerRun(g, S, call, env, inbox);
    }
    ClosesWhatItOpened(st);
  }
}

=== FILE: open_protocol.dfy ===
/** Properties of the map-open exchange: what the leader broadcasts on each
    exit, what a follower makes of it, and what is released on the way out. */
module OpenProtocol {
  import opened Bytes
  import opened Outcomes
  import opened Envelope
  import opened MapObject
  import opened MapOpen

  // ---------------------------------------------------------------------
  // Footprints of traces

  lemma PlusAssoc(a: Tally, b: Tally, c: Tally)
    ensures Plus(a, Plus(b, c)) == Plus(Plus(a, b), c)
  {
    assert a.sent + (b.sent + c.sent) == (a.sent + b.sent) + c.sent;
    assert a.got + (b.got + c.got) == (a.got + b.got) + c.got;
    assert a.objects + (b.objects + c.objects) == (a.objects + b.objects) + c.objects;
    assert a.allocs + (b.allocs + c.allocs) == (a.allocs + b.allocs) + c.allocs;
    assert a.freed + (b.freed + c.freed) == (a.freed + b.freed) + c.freed;
    assert a.released + (b.released + c.released) == (a.released + b.released) + c.released;
  }

  lemma {:induction false} TallyAppend(a: seq<Event>, b: seq<Event>)
    ensures TallyOf(a + b) == Plus(TallyOf(a), TallyOf(b))
  {
    if |a| == 0 {
      assert a + b == b;
      var tb := TallyOf(b);
      assert Plus(NoTally, tb) == tb;
    } else {
      var ab := a + b;
      assert ab[0] == a[0];
      assert ab[1..] == a[1..] + b;
      TallyAppend(a[1..], b);
      PlusAssoc(Footprint(a[0]), TallyOf(a[1..]), TallyOf(b));
      assert TallyOf(ab) == Plus(Footprint(a[0]), TallyOf(a[1..] + b));
    }
  }

  lemma Snoc(t: seq<Event>, e: Event)
    ensures TallyOf(t + [e]) == Plus(TallyOf(t), Footprint(e))
  {
    TallyAppend(t, [e]);
    assert TallyOf([e]) == Plus(Footprint(e), TallyOf([]));
  }

  lemma SnocSent(t: seq<Event>, m: seq<byte>)
    ensures TallyOf(t + [Bcast(m)]) == TallyOf(t).(sent := TallyOf(t).sent + [m])
  {
    Snoc(t, Bcast(m));
    var a := TallyOf(t);
    assert a.got + [] == a.got && a.objects + [] == a.objects && a.allocs + [] == a.allocs;
    assert a.freed + [] == a.freed && a.released + [] == a.released;
  }

  lemma SnocGot(t: seq<Event>, m: seq<byte>)
    ensures TallyOf(t + [Received(m)]) == TallyOf(t).(got := TallyOf(t).got + [m])
  {
    Snoc(t, Received(m));
    var a := TallyOf(t);
    assert a.sent + [] == a.sent && a.objects + [] == a.objects && a.allocs + [] == a.allocs;
    assert a.freed + [] == a.freed && a.released + [] == a.released;
  }

  lemma SnocObject(t: seq<Event>, oid: Oid)
    ensures TallyOf(t + [ObjOpened(oid)]) == TallyOf(t).(objects := TallyOf(t).objects + [oid])
  {
    Snoc(t, ObjOpened(oid));
    var a := TallyOf(t);
    assert a.sent + [] == a.sent && a.got + [] == a.got && a.allocs + [] == a.allocs;
    assert a.freed + [] == a.freed && a.released + [] == a.released;
  }

  lemma SnocAlloc(t: seq<Event>, n: nat)
    ensures TallyOf(t + [HeapAlloc(n)]) == TallyOf(t).(allocs := TallyOf(t).allocs + [n])
  {
    Snoc(t, HeapAlloc(n));
    var a := TallyOf(t);
    assert a.sent + [] == a.sent && a.got + [] == a.got && a.objects + [] == a.objects;
    assert a.freed + [] == a.freed && a.released + [] == a.released;
  }

  /** Appending an event with no footprint leaves the footprint alone. */
  lemma Quiet(t: seq<Event>, e: Event)
    requires Footprint(e) == NoTally
    ensures TallyOf(t + [e]) == TallyOf(t)
  {
    Snoc(t, e);
    var a := TallyOf(t);
    assert a.sent + [] == a.sent && a.got + [] == a.got && a.objects + [] == a.objects;
    assert a.allocs + [] == a.allocs && a.freed + [] == a.freed && a.released + [] == a.released;
  }

  lemma One(e: Event)
    ensures TallyOf([e]) == Footprint(e)
  {
    assert [e][1..] == [];
  }

  lemma {:induction false} ReleaseTally(rs: seq<Release>)
    ensures TallyOf(ReleaseEvents(rs)) == NoTally.(released := rs)
  {
    var t := ReleaseEvents(rs);
    if |rs| == 0 {
      assert t == [];
    } else {
      assert t[0] == Released(rs[0]);
      assert t[1..] == ReleaseEvents(rs[1..]);
      ReleaseTally(rs[1..]);
      assert TallyOf(t) == Plus(NoTally.(released := [rs[0]]), NoTally.(released := rs[1..]));
      assert [rs[0]] + rs[1..] == rs;
    }
  }

  /** The stage invariant: one reference and no request; the handle is open
      on exactly the object the trace opened, the dynamic buffer is exactly the
      one the trace allocated, and nothing is freed or released before
      `done:`. */
  predicate Consistent(st: Stage) {
    var f := TallyOf(st.trace);
    && st.obj.rc == 1 && !st.obj.openReq
    && f.objects == (if st.obj.oh.Open? then [st.obj.oh.oid] else [])
    && f.allocs == (if st.dyn.Some? then [st.dyn.value] else [])
    && f.freed == [] && f.released == []
  }

  // ---------------------------------------------------------------------
  // Stage facts

  lemma DecodeTypesTally(t: seq<Event>, oid: Oid, window: seq<byte>, klen: nat, obj: MapObj,
                         dyn: Option<nat>, fault: Option<Step>)
    ensures TallyOf(DecodeTypes(t, oid, window, klen, obj, dyn, fault).trace) == TallyOf(t)
  {
    Quiet(t, TypeDecoded(window));
    Quiet(t + [TypeDecoded(window)], TypeDecoded(Drop(window, klen)));
  }

  /** The messages the leader's body broadcasts once it has the types. */
  function LeaderSent(g: Group, S: nat, env: Env, oid: Oid): seq<seq<byte>>
    requires S >= HEADER_SIZE && |env.stale| == S && Addressable(env)
  {
    if !MustBcast(g) || Fails(env, Bcast1) then []
    else if TotLen(env) + HEADER_SIZE <= S || Fails(env, Bcast2) then [FirstMessage(S, oid, env)]
    else [FirstMessage(S, oid, env), env.ktype + env.vtype]
  }

  lemma SendNoneTally(g: Group, S: nat, env: Env, oid: Oid, obj: MapObj, t: seq<Event>, dyn: Option<nat>)
    requires S >= HEADER_SIZE && |env.stale| == S && Addressable(env)
    requires !MustBcast(g) || Fails(env, Bcast1)
    ensures TallyOf(LeaderSend(g, S, env, oid, obj, t, dyn).trace) == TallyOf(t)
  {
    if !MustBcast(g) {
      DecodeTypesTally(t, oid, env.ktype + env.vtype, |env.ktype|, obj, dyn, env.fault);
    }
  }

  lemma SendFirstTally(g: Group, S: nat, env: Env, oid: Oid, obj: MapObj, t: seq<Event>, dyn: Option<nat>)
    requires S >= HEADER_SIZE && |env.stale| == S && Addressable(env)
    requires MustBcast(g) && !Fails(env, Bcast1)
    requires TotLen(env) + HEADER_SIZE <= S || Fails(env, Bcast2)
    ensures TallyOf(LeaderSend(g, S, env, oid, obj, t, dyn).trace)
            == TallyOf(t).(sent := TallyOf(t).sent + [FirstMessage(S, oid, env)])
  {
    var first := FirstMessage(S, oid, env);
    SnocSent(t, first);
    if TotLen(env) + HEADER_SIZE <= S {
      DecodeTypesTally(t + [Bcast(first)], oid, env.ktype + env.vtype, |env.ktype|, obj, dyn, env.fault);
    }
  }

  lemma SendBothTally(g: Group, S: nat, env: Env, oid: Oid, obj: MapObj, t: seq<Event>, dyn: Option<nat>)
    requires S >= HEADER_SIZE && |env.stale| == S && Addressable(env)
    requires MustBcast(g) && !Fails(env, Bcast1)
    requires TotLen(env) + HEADER_SIZE > S && !Fails(env, Bcast2)
    ensures TallyOf(LeaderSend(g, S, env, oid, obj, t, dyn).trace)
            == TallyOf(t).(sent := TallyOf(t).sent + [FirstMessage(S, oid, env), env.ktype + env.vtype])
  {
    var first := FirstMessage(S, oid, env);
    var payload := env.ktype + env.vtype;
    var t1 := t + [Bcast(first)];
    SnocSent(t, first);
    SnocSent(t1, payload);
    DecodeTypesTally(t1 + [Bcast(payload)], oid, payload, |env.ktype|, obj, dyn, env.fault);
    assert TallyOf(t).sent + [first] + [payload] == TallyOf(t).sent + [first, payload];
  }

  lemma LeaderSendTally(g: Group, S: nat, env: Env, oid: Oid, obj: MapObj, t: seq<Event>, dyn: Option<nat>)
    requires S >= HEADER_SIZE && |env.stale| == S && Addressable(env)
    ensures TallyOf(LeaderSend(g, S, env, oid, obj, t, dyn).trace)
            == TallyOf(t).(sent := TallyOf(t).sent + LeaderSent(g, S, env, oid))
  {
    if !MustBcast(g) || Fails(env, Bcast1) {
      SendNoneTally(g, S, env, oid, obj, t, dyn);
      assert TallyOf(t).sent + [] == TallyOf(t).sent;
    } else if TotLen(env) + HEADER_SIZE <= S || Fails(env, Bcast2) {
      SendFirstTally(g, S, env, oid, obj, t, dyn);
    } else {
      SendBothTally(g, S, env, oid, obj, t, dyn);
    }
  }

  /** How the leader's body ends once it has the types: opened with the
      stored types, or failed at a broadcast or a decode, with what it
      broadcast by then. */
  predicate SendOutcome(g: Group, S: nat, env: Env, oid: Oid, status: Status)
    requires S >= HEADER_SIZE && |env.stale| == S && Addressable(env)
  {
    && (status.Opened? ==> status.m == OpenedMap(oid, env.ktype, env.vtype))
    && (status.Opened? || status == Failed(TypeDecodeFailed) || status == Failed(BroadcastFailed)
        || status == Failed(SecondBroadcastFailed))
    && (status.Opened? || status == Failed(TypeDecodeFailed) ==>
          LeaderSent(g, S, env, oid) == (if MustBcast(g) then Messages(S, oid, env) else []))
    && (status == Failed(SecondBroadcastFailed) ==> LeaderSent(g, S, env, oid) == [FirstMessage(S, oid, env)])
    && (status == Failed(BroadcastFailed) ==> LeaderSent(g, S, env, oid) == [])
    && (env.fault.None? ==> status.Opened?)
  }

  lemma LeaderSendStatus(g: Group, S: nat, env: Env, oid: Oid, obj: MapObj, t: seq<Event>, dyn: Option<nat>)
    requires S >= HEADER_SIZE && |env.stale| == S && Addressable(env)
    ensures var st := LeaderSend(g, S, env, oid, obj, t, dyn);
      && st.dyn == dyn && st.obj.oh == obj.oh && st.obj.rc == obj.rc && st.obj.openReq == obj.openReq
      && SendOutcome(g, S, env, oid, st.status)
  {
    var payload := env.ktype + env.vtype;
    assert Take(payload, |env.ktype|) == env.ktype;
    assert Drop(payload, |env.ktype|) == env.vtype;
  }

  /** Whether the leader's body gets as far as its broadcasts. */
  predicate ReachesSend(S: nat, env: Env) {
    && !Fails(env, SizeFetch) && |env.ktype| > 0 && |env.vtype| > 0
    && !(TotLen(env) + HEADER_SIZE > S && Fails(env, BufAlloc))
    && !Fails(env, DataFetch)
  }

  /** The footprint of the leader's opening, size fetch and allocation. */
  lemma FetchPrefix(oid: Oid, dyn: Option<nat>)
    ensures TallyOf([ObjOpened(oid), SizesFetched] + (if dyn.Some? then [HeapAlloc(dyn.value)] else []))
            == NoTally.(objects := [oid], allocs := if dyn.Some? then [dyn.value] else [])
  {
    var t0 := [ObjOpened(oid)];
    var t1 := t0 + [SizesFetched];
    SnocObject([], oid);
    assert [] + [ObjOpened(oid)] == t0;
    Quiet(t0, SizesFetched);
    assert t1 == [ObjOpened(oid), SizesFetched];
    if dyn.Some? {
      SnocAlloc(t1, dyn.value);
    } else {
      assert t1 + [] == t1;
    }
  }

  /** Before the data fetch the leader has opened the object and nothing
      else. */
  lemma FetchEarlyTally(g: Group, S: nat, env: Env, oid: Oid)
    requires S >= HEADER_SIZE && |env.stale| == S && Addressable(env)
    requires Fails(env, SizeFetch) || |env.ktype| == 0 || |env.vtype| == 0
             || (TotLen(env) + HEADER_SIZE > S && Fails(env, BufAlloc))
    ensures LeaderFetch(g, S, env, oid).dyn.None?
    ensures TallyOf(LeaderFetch(g, S, env, oid).trace) == NoTally.(objects := [oid])
  {
    var st := LeaderFetch(g, S, env, oid);
    var t0 := [ObjOpened(oid)];
    SnocObject([], oid);
    assert [] + [ObjOpened(oid)] == t0;
    if Fails(env, SizeFetch) {
      assert st.trace == t0;
    } else {
      assert st.trace == t0 + [SizesFetched];
      Quiet(t0, SizesFetched);
    }
  }

  /** From the data fetch on, the leader's footprint is its prefix plus
      whatever it broadcasts. */
  lemma FetchLateTally(g: Group, S: nat, env: Env, oid: Oid)
    requires S >= HEADER_SIZE && |env.stale| == S && Addressable(env)
    requires !Fails(env, SizeFetch) && |env.ktype| > 0 && |env.vtype| > 0
    requires !(TotLen(env) + HEADER_SIZE > S && Fails(env, BufAlloc))
    ensures var st := LeaderFetch(g, S, env, oid);
      TallyOf(st.trace) == NoTally.(objects := [oid],
                                    allocs := if st.dyn.Some? then [st.dyn.value] else [],
                                    sent := if ReachesSend(S, env) then LeaderSent(g, S, env, oid) else [])
  {
    var st := LeaderFetch(g, S, env, oid);
    var tot := TotLen(env);
    var dyn := if tot + HEADER_SIZE > S then Some(tot + HEADER_SIZE) else None;
    var t2 := [ObjOpened(oid), SizesFetched] + (if dyn.Some? then [HeapAlloc(dyn.value)] else []);
    assert [ObjOpened(oid)] + [SizesFetched] + (if tot + HEADER_SIZE > S then [HeapAlloc(tot + HEADER_SIZE)] else []) == t2;
    var obj := Fresh.(oh := Open(oid));
    if Fails(env, DataFetch) {
      assert st == Stage(t2, Failed(MetadataFetchFailed), obj, dyn);
      FetchPrefix(oid, dyn);
    } else {
      assert st == LeaderSend(g, S, env, oid, obj, t2 + [MetadataFetched], dyn);
      FetchSendTally(g, S, env, oid, dyn);
    }
  }

  lemma FetchSendTally(g: Group, S: nat, env: Env, oid: Oid, dyn: Option<nat>)
    requires S >= HEADER_SIZE && |env.stale| == S && Addressable(env)
    ensures var t2 := [ObjOpened(oid), SizesFetched] + (if dyn.Some? then [HeapAlloc(dyn.value)] else []);
      var st := LeaderSend(g, S, env, oid, Fresh.(oh := Open(oid)), t2 + [MetadataFetched], dyn);
      TallyOf(st.trace) == NoTally.(objects := [oid],
                                    allocs := if dyn.Some? then [dyn.value] else [],
                                    sent := LeaderSent(g, S, env, oid))
  {
    var t2 := [ObjOpened(oid), SizesFetched] + (if dyn.Some? then [HeapAlloc(dyn.value)] else []);
    FetchPrefix(oid, dyn);
    Quiet(t2, MetadataFetched);
    LeaderSendTally(g, S, env, oid, Fresh.(oh := Open(oid)), t2 + [MetadataFetched], dyn);
  }

  lemma LeaderFetchTally(g: Group, S: nat, env: Env, oid: Oid)
    requires S >= HEADER_SIZE && |env.stale| == S && Addressable(env)
    ensures var st := LeaderFetch(g, S, env, oid);
      TallyOf(st.trace) == NoTally.(objects := [oid],
                                    allocs := if st.dyn.Some? then [st.dyn.value] else [],
                                    sent := if ReachesSend(S, env) then LeaderSent(g, S, env, oid) else [])
  {
    if !Fails(env, SizeFetch) && |env.ktype| > 0 && |env.vtype| > 0 && !(TotLen(env) + HEADER_SIZE > S && Fails(env, BufAlloc)) {
      FetchLateTally(g, S, env, oid);
    } else {
      FetchEarlyTally(g, S, env, oid);
    }
  }

  lemma LeaderFetchStatus(g: Group, S: nat, env: Env, oid: Oid)
    requires S >= HEADER_SIZE && |env.stale| == S && Addressable(env)
    ensures var st := LeaderFetch(g, S, env, oid);
      && st.obj.rc == 1 && !st.obj.openReq && st.obj.oh == Open(oid)
      && (st.dyn.Some? ==> st.dyn.value == TotLen(env) + HEADER_SIZE > S)
      && (ReachesSend(S, env) ==> SendOutcome(g, S, env, oid, st.status)
                                  && (st.dyn.Some? <==> TotLen(env) + HEADER_SIZE > S))
      && (!ReachesSend(S, env) ==>
            st.status.Failed? && st.status.error in {SizeFetchFailed, MetadataNotFound, BufferAllocFailed, MetadataFetchFailed})
  {
    var tot := TotLen(env);
    if ReachesSend(S, env) {
      var dyn := if tot + HEADER_SIZE > S then Some(tot + HEADER_SIZE) else None;
      var t2 := [ObjOpened(oid)] + [SizesFetched] + (if tot + HEADER_SIZE > S then [HeapAlloc(tot + HEADER_SIZE)] else []);
      LeaderSendStatus(g, S, env, oid, Fresh.(oh := Open(oid)), t2 + [MetadataFetched], dyn);
    }
  }

  /** What the leader's body leaves behind for the map at `oid`: the stage
      invariant, no receive, the object opened only at `oid`, a dynamic buffer
      only when the envelope exceeds the static one, and on success the two
      stored types. */
  predicate LeaderShape(S: nat, env: Env, oid: Oid, st: Stage)
    requires S >= HEADER_SIZE && |env.stale| == S && Addressable(env)
  {
    && Consistent(st)
    && Got(st.trace) == []
    && !st.status.Blocked?
    && (st.obj.oh.Open? ==> st.obj.oh.oid == oid)
    && (st.dyn.Some? ==> st.dyn.value == TotLen(env) + HEADER_SIZE > S)
    && (st.status.Opened? ==>
          && st.status.m == OpenedMap(oid, env.ktype, env.vtype)
          && |env.ktype| > 0 && |env.vtype| > 0
          && (st.dyn.Some? <==> TotLen(env) + HEADER_SIZE > S))
  }

  /** What the leader's body has broadcast by `done:`, by exit. */
  predicate LeaderSends(g: Group, S: nat, env: Env, oid: Oid, st: Stage)
    requires S >= HEADER_SIZE && |env.stale| == S && Addressable(env)
  {
    && (!MustBcast(g) ==> Sent(st.trace) == [])
    && (MustBcast(g) && (st.status.Opened? || st.status == Failed(TypeDecodeFailed)) ==>
          Sent(st.trace) == Messages(S, oid, env))
    && (MustBcast(g) && st.status == Failed(SecondBroadcastFailed) ==>
          Sent(st.trace) == [FirstMessage(S, oid, env)])
    && (st.status.Failed? && st.status.error != SecondBroadcastFailed && st.status.error != TypeDecodeFailed ==>
          Sent(st.trace) == [])
  }

  /** An exit before the object is located leaves nothing behind. */
  predicate EarlyExit(st: Stage) {
    st.trace == [] && st.status.Failed? && st.obj == Fresh && st.dyn.None?
  }

  lemma LeaderBodyShape(g: Group, S: nat, call: Call, env: Env)
    requires S >= HEADER_SIZE && |env.stale| == S && Addressable(env)
    ensures LeaderShape(S, env, env.located, LeaderBody(g, S, call, env))
  {
    var st := LeaderBody(g, S, call, env);
    if EarlyExit(st) {
      assert TallyOf(st.trace) == NoTally;
    } else {
      assert st == LeaderFetch(g, S, env, env.located);
      LeaderFetchTally(g, S, env, env.located);
      LeaderFetchStatus(g, S, env, env.located);
    }
  }

  lemma LeaderBodySends(g: Group, S: nat, call: Call, env: Env)
    requires S >= HEADER_SIZE && |env.stale| == S && Addressable(env)
    ensures LeaderSends(g, S, env, env.located, LeaderBody(g, S, call, env))
  {
    var st := LeaderBody(g, S, call, env);
    if EarlyExit(st) {
      assert TallyOf(st.trace) == NoTally;
    } else {
      assert st == LeaderFetch(g, S, env, env.located);
      LeaderFetchTally(g, S, env, env.located);
      LeaderFetchStatus(g, S, env, env.located);
    }
  }

  /** With no failing call, a usable location and both types stored, the
      leader opens the map. */
  lemma LeaderBodyOpens(g: Group, S: nat, call: Call, env: Env)
    requires S >= HEADER_SIZE && |env.stale| == S && Addressable(env)
    requires env.fault.None? && !call.loc.OtherLoc? && call.loc != BySelf(None)
    requires |env.ktype| > 0 && |env.vtype| > 0
    ensures LeaderBody(g, S, call, env).status.Opened?
  {
    LeaderFetchStatus(g, S, env, env.located);
  }

  lemma FollowerOpenTally(t: seq<Event>, oid: Oid, window: seq<byte>, klen: nat, dyn: Option<nat>, env: Env)
    ensures TallyOf(FollowerOpen(t, oid, window, klen, dyn, env).trace)
            == TallyOf(t).(objects := TallyOf(t).objects + (if Fails(env, ObjOpen) then [] else [oid]))
  {
    if Fails(env, ObjOpen) {
      assert TallyOf(t).objects + [] == TallyOf(t).objects;
    } else {
      SnocObject(t, oid);
      DecodeTypesTally(t + [ObjOpened(oid)], oid, window, klen, Fresh.(oh := Open(oid)), dyn, env.fault);
    }
  }

  lemma FollowerOpenStatus(t: seq<Event>, oid: Oid, window: seq<byte>, klen: nat, dyn: Option<nat>, env: Env)
    ensures var st := FollowerOpen(t, oid, window, klen, dyn, env);
      && st.dyn == dyn && st.obj.rc == 1 && !st.obj.openReq
      && (st.obj.oh == if Fails(env, ObjOpen) then NoHandle else Open(oid))
      && !st.status.Blocked?
      && (env.fault.None? ==> st.status == Opened(OpenedMap(oid, Take(window, klen), Drop(window, klen))))
  {
  }

  /** What a follower's body leaves behind: the stage invariant, nothing
      sent, the messages received a prefix of the inbox, and a dynamic buffer
      only for a payload larger than the static buffer. */
  predicate FollowerShape(S: nat, inbox: seq<seq<byte>>, st: Stage) {
    && Consistent(st)
    && Sent(st.trace) == []
    && Got(st.trace) <= inbox
    && (st.dyn.Some? ==> st.dyn.value > S)
  }

  /** The footprint of the first receive and of the allocation the second
      receive may need. */
  lemma SecondPrefix(inbox: seq<seq<byte>>, S: nat, tot: nat)
    requires |inbox| > 0
    ensures TallyOf([Received(inbox[0])] + (if tot > S then [HeapAlloc(tot)] else []))
            == NoTally.(got := [inbox[0]], allocs := if tot > S then [tot] else [])
  {
    var t0 := [Received(inbox[0])];
    FirstReceived(inbox);
    if tot > S {
      SnocAlloc(t0, tot);
    } else {
      assert t0 + [] == t0;
    }
  }

  /** The second receive succeeded: the follower has received both
      messages and goes on to open the object. */
  lemma SecondOpenShape(S: nat, env: Env, inbox: seq<seq<byte>>, oid: Oid, klen: nat, tot: nat)
    requires |inbox| >= 2
    ensures var dyn := if tot > S then Some(tot) else None;
      var t2 := [Received(inbox[0])] + (if tot > S then [HeapAlloc(tot)] else []) + [Received(inbox[1])];
      var st := FollowerOpen(t2, oid, inbox[1], klen, dyn, env);
      && Consistent(st)
      && Sent(st.trace) == []
      && Got(st.trace) == [inbox[0], inbox[1]]
      && st.dyn == dyn
  {
    var dyn := if tot > S then Some(tot) else None;
    var t1 := [Received(inbox[0])] + (if tot > S then [HeapAlloc(tot)] else []);
    SecondPrefix(inbox, S, tot);
    SnocGot(t1, inbox[1]);
    FollowerOpenTally(t1 + [Received(inbox[1])], oid, inbox[1], klen, dyn, env);
    FollowerOpenStatus(t1 + [Received(inbox[1])], oid, inbox[1], klen, dyn, env);
  }

  lemma FollowerSecondShape(S: nat, env: Env, inbox: seq<seq<byte>>, oid: Oid, klen: nat, tot: nat)
    requires |inbox| > 0
    ensures var st := FollowerSecond(S, env, inbox, oid, klen, tot);
      && Consistent(st)
      && Sent(st.trace) == []
      && Got(st.trace) <= inbox
      && (st.dyn.Some? ==> st.dyn.value == tot > S)
  {
    var st := FollowerSecond(S, env, inbox, oid, klen, tot);
    var dyn := if tot > S then Some(tot) else None;
    var t1 := [Received(inbox[0])] + (if tot > S then [HeapAlloc(tot)] else []);
    if tot > S && Fails(env, BufAlloc) {
      assert st == Stage([Received(inbox[0])], Failed(BufferAllocFailed), Fresh, None);
      FirstReceived(inbox);
    } else if |inbox| < 2 || Fails(env, Bcast2) || |inbox[1]| != tot {
      assert st.trace == t1 && st.obj == Fresh && st.dyn == dyn;
      SecondPrefix(inbox, S, tot);
      FirstReceived(inbox);
    } else {
      assert st == FollowerOpen(t1 + [Received(inbox[1])], oid, inbox[1], klen, dyn, env);
      SecondOpenShape(S, env, inbox, oid, klen, tot);
      assert [inbox[0], inbox[1]] <= inbox;
    }
  }

  /** The footprint of the first receive alone. */
  lemma FirstReceived(inbox: seq<seq<byte>>)
    requires |inbox| > 0
    ensures TallyOf([Received(inbox[0])]) == NoTally.(got := [inbox[0]])
    ensures [inbox[0]] <= inbox
  {
    SnocGot([], inbox[0]);
    assert [] + [Received(inbox[0])] == [Received(inbox[0])];
  }

  lemma FollowerInlineShape(S: nat, env: Env, inbox: seq<seq<byte>>, oid: Oid, window: seq<byte>, klen: nat)
    requires |inbox| > 0
    ensures FollowerShape(S, inbox, FollowerOpen([Received(inbox[0])], oid, window, klen, None, env))
  {
    var t0 := [Received(inbox[0])];
    FirstReceived(inbox);
    FollowerOpenTally(t0, oid, window, klen, None, env);
    FollowerOpenStatus(t0, oid, window, klen, None, env);
  }

  lemma FollowerDecodeShape(S: nat, env: Env, inbox: seq<seq<byte>>, h: Header)
    requires S >= HEADER_SIZE && |inbox| > 0 && |inbox[0]| == S
    ensures FollowerShape(S, inbox, FollowerDecode(S, env, inbox, h))
  {
    var st := FollowerDecode(S, env, inbox, h);
    var oid := Oid(h.lo, h.hi);
    var tot := (h.klen + h.vlen) % TWO64;
    if h.klen == 0 {
      assert st == Stage([Received(inbox[0])], Failed(LeaderFailed), Fresh, None);
      FirstReceived(inbox);
    } else if (tot + HEADER_SIZE) % TWO64 > S {
      assert st == FollowerSecond(S, env, inbox, oid, h.klen, tot);
      FollowerSecondShape(S, env, inbox, oid, h.klen, tot);
    } else {
      var window := Take(inbox[0][HEADER_SIZE..], tot);
      assert st == FollowerOpen([Received(inbox[0])], oid, window, h.klen, None, env);
      FollowerInlineShape(S, env, inbox, oid, window, h.klen);
    }
  }

  /** The one dynamic buffer a follower may allocate holds tot_len bytes. */
  lemma FollowerDecodeBuffer(S: nat, env: Env, inbox: seq<seq<byte>>, h: Header)
    requires S >= HEADER_SIZE && |inbox| > 0 && |inbox[0]| == S
    ensures FollowerDecode(S, env, inbox, h).dyn.Some? ==>
              FollowerDecode(S, env, inbox, h).dyn.value == (h.klen + h.vlen) % TWO64
  {
    var st := FollowerDecode(S, env, inbox, h);
    var oid := Oid(h.lo, h.hi);
    var tot := (h.klen + h.vlen) % TWO64;
    if h.klen == 0 {
      assert st.dyn == None;
    } else if (tot + HEADER_SIZE) % TWO64 > S {
      assert st == FollowerSecond(S, env, inbox, oid, h.klen, tot);
      FollowerSecondBuffer(S, env, inbox, oid, h.klen, tot);
    } else {
      var window := Take(inbox[0][HEADER_SIZE..], tot);
      assert st == FollowerOpen([Received(inbox[0])], oid, window, h.klen, None, env);
      FollowerOpenStatus([Received(inbox[0])], oid, window, h.klen, None, env);
    }
  }

  lemma FollowerSecondBuffer(S: nat, env: Env, inbox: seq<seq<byte>>, oid: Oid, klen: nat, tot: nat)
    requires |inbox| > 0
    ensures FollowerSecond(S, env, inbox, oid, klen, tot).dyn.Some? ==>
              FollowerSecond(S, env, inbox, oid, klen, tot).dyn.value == tot
  {
    var dyn := if tot > S then Some(tot) else None;
    var t1 := [Received(inbox[0])] + (if tot > S then [HeapAlloc(tot)] else []);
    if !(tot > S && Fails(env, BufAlloc)) && |inbox| >= 2 && !Fails(env, Bcast2) && |inbox[1]| == tot {
      FollowerOpenStatus(t1 + [Received(inbox[1])], oid, inbox[1], klen, dyn, env);
    }
  }

  lemma FollowerBodyShape(S: nat, env: Env, inbox: seq<seq<byte>>)
    requires S >= HEADER_SIZE
    ensures FollowerShape(S, inbox, FollowerBody(S, env, inbox))
  {
    if |inbox| == 0 || Fails(env, Bcast1) || |inbox[0]| != S {
      assert TallyOf([]) == NoTally;
    } else {
      FollowerDecodeShape(S, env, inbox, DecodeHeader(inbox[0]));
    }
  }

  /** A follower's dynamic buffer holds the tot_len its first message
      announces. */
  lemma FollowerBodyBuffer(S: nat, env: Env, inbox: seq<seq<byte>>)
    requires S >= HEADER_SIZE
    ensures var st := FollowerBody(S, env, inbox);
      st.dyn.Some? ==>
        && |inbox| > 0 && |inbox[0]| == S
        && st.dyn.value == (DecodeHeader(inbox[0]).klen + DecodeHeader(inbox[0]).vlen) % TWO64
  {
    if |inbox| > 0 && !Fails(env, Bcast1) && |inbox[0]| == S {
      FollowerDecodeBuffer(S, env, inbox, DecodeHeader(inbox[0]));
    }
  }

  lemma AppendPoison(t: seq<Event>, mb: bool, S: nat)
    ensures TallyOf(t + (if mb then [Bcast(Zeros(S))] else []))
            == TallyOf(t).(sent := TallyOf(t).sent + (if mb then [Zeros(S)] else []))
  {
    if mb {
      SnocSent(t, Zeros(S));
    } else {
      assert t + [] == t;
      assert TallyOf(t).sent + [] == TallyOf(t).sent;
    }
  }

  lemma AppendReleases(t: seq<Event>, rs: seq<Release>)
    ensures TallyOf(t + ReleaseEvents(rs)) == TallyOf(t).(released := TallyOf(t).released + rs)
  {
    TallyAppend(t, ReleaseEvents(rs));
    ReleaseTally(rs);
    var a := TallyOf(t);
    assert a.sent + [] == a.sent && a.got + [] == a.got && a.objects + [] == a.objects;
    assert a.allocs + [] == a.allocs && a.freed + [] == a.freed;
  }

  lemma AppendFrees(t: seq<Event>, dyn: Option<nat>)
    ensures TallyOf(t + Frees(dyn))
            == TallyOf(t).(freed := TallyOf(t).freed + (if dyn.Some? then [dyn.value] else []))
  {
    var a := TallyOf(t);
    match dyn
    case None =>
      assert t + [] == t;
      assert a.freed + [] == a.freed;
    case Some(n) =>
      Snoc(t, HeapFree(n));
      assert a.sent + [] == a.sent && a.got + [] == a.got && a.objects + [] == a.objects;
      assert a.allocs + [] == a.allocs && a.released + [] == a.released;
  }

  lemma PoisonThenReleases(t: seq<Event>, mb: bool, S: nat, rs: seq<Release>)
    requires TallyOf(t).released == []
    ensures var f := TallyOf(t);
      TallyOf(t + (if mb then [Bcast(Zeros(S))] else []) + ReleaseEvents(rs))
      == f.(sent := f.sent + (if mb then [Zeros(S)] else []), released := rs)
  {
    var p := t + (if mb then [Bcast(Zeros(S))] else []);
    AppendPoison(t, mb, S);
    AppendReleases(p, rs);
    assert [] + rs == rs;
  }

  /** The footprint of a failure exit appended to any trace that has freed
      and released nothing yet. */
  lemma ExitTally(t: seq<Event>, mb: bool, S: nat, rs: seq<Release>, dyn: Option<nat>)
    requires TallyOf(t).freed == [] && TallyOf(t).released == []
    ensures var f := TallyOf(t);
      TallyOf(t + (if mb then [Bcast(Zeros(S))] else []) + ReleaseEvents(rs) + Frees(dyn))
      == Tally(f.sent + (if mb then [Zeros(S)] else []), f.got, f.objects, f.allocs,
               if dyn.Some? then [dyn.value] else [], rs)
  {
    var q := t + (if mb then [Bcast(Zeros(S))] else []) + ReleaseEvents(rs);
    PoisonThenReleases(t, mb, S, rs);
    AppendFrees(q, dyn);
    var fr := if dyn.Some? then [dyn.value] else [];
    assert [] + fr == fr;
  }

  /** The `done:` label in the failure case: the footprint of the body,
      then the all-zero message if one was promised, the releases of the
      half-built map and the free of the dynamic buffer. */
  lemma FinishFailed(st: Stage, mb: bool, S: nat)
    requires Consistent(st) && st.status.Failed?
    ensures var f := TallyOf(st.trace);
      TallyOf(Finish(st, mb, S).trace)
      == Tally(f.sent + (if mb then [Zeros(S)] else []), f.got, f.objects, f.allocs, f.allocs, Teardown(st.obj))
  {
    var rs := Teardown(st.obj);
    assert Finish(st, mb, S).trace
           == st.trace + (if mb then [Bcast(Zeros(S))] else []) + ReleaseEvents(rs) + Frees(st.dyn);
    ExitTally(st.trace, mb, S, rs, st.dyn);
  }

  /** The `done:` label in the success case: only the dynamic buffer is
      freed. */
  lemma FinishOpened(st: Stage, mb: bool, S: nat)
    requires Consistent(st) && st.status.Opened?
    ensures var f := TallyOf(st.trace);
      TallyOf(Finish(st, mb, S).trace) == Tally(f.sent, f.got, f.objects, f.allocs, f.allocs, [])
  {
    AppendFrees(st.trace, st.dyn);
    var fr := if st.dyn.Some? then [st.dyn.value] else [];
    assert [] + fr == fr;
  }

  /** The `done:` label keeps the status and what was opened, allocated and
      received; it adds exactly one all-zero message when a failed leader
      promised a broadcast, frees every dynamic buffer on any exit, and
      releases the half-built map on failure and nothing on success. */
  lemma FinishFacts(st: Stage, mb: bool, S: nat)
    requires Consistent(st)
    ensures var r := Finish(st, mb, S);
      var f := TallyOf(st.trace);
      var g := TallyOf(r.trace);
      && r.status == st.status
      && (r.status.Blocked? ==> r.trace == st.trace)
      && g.got == f.got && g.objects == f.objects && g.allocs == f.allocs
      && (!r.status.Blocked? ==> g.freed == f.allocs)
      && (r.status.Opened? ==> g.sent == f.sent && g.released == [])
      && (r.status.Failed? ==>
            g.sent == f.sent + (if mb then [Zeros(S)] else []) && g.released == Teardown(st.obj))
  {
    if st.status.Opened? {
      FinishOpened(st, mb, S);
    } else if st.status.Failed? {
      FinishFailed(st, mb, S);
    }
  }
}

=== FILE: outcomes.dfy ===
/** Result wrappers and the error kinds of the map connector.
    Each `Error` constructor names the sub-step that failed at one failure
    site of src/daos_vol_map.c. The name follows what failed, which is not
    always the text of the HDF5 error stack message the site pushes. */
module Outcomes {

  datatype Option<+T> = None | Some(value: T)

  datatype Result<+T> = Ok(value: T) | Err(error: Error)

  /** Pass/Fail for operations that return only a status (herr_t). */
  datatype Outcome = Pass | Fail(error: Error)

  datatype Error =
    // argument checks, raised before any I/O
    | NullArgument
    | NoWriteIntent
    | UnsupportedLocation
    // setup
    | CollectivePropertyUnavailable
    | StructAllocFailed
    | TraverseFailed
    | LinkFollowFailed
    // store access
    | ObjectOpenFailed
    | SizeFetchFailed
    | MetadataNotFound
    | BufferAllocFailed
    | MetadataFetchFailed
    | MaxOidWriteFailed
    | MetadataWriteFailed
    | LinkWriteFailed
    | SetFailed
    | GetFailed
    | ListFailed
    // coordination
    | BroadcastFailed
    | SecondBroadcastFailed
    | ReceiveFailed
    | SecondReceiveFailed
    | LeaderFailed
    // datatype handling
    | TypeDecodeFailed
    | TypeSizeUnavailable
    | TypeBufferAllocFailed
    | TypeEncodeFailed
    | TypeCopyFailed
    | NotADatatype
    | BadSuperType
    | UnsupportedDatatype
    | KeySizeUnavailable
    | ValueSizeUnavailable
    // close
    | GroupCloseFailed
    | ObjectCloseFailed
    | TypeReleaseFailed
}
